=== FILE: README.md ===
# Weather service core: circuit breaker, cache strategies, cache keys

This project models three pieces of the weather service.

- **The circuit breaker** (`utils/circuit_breaker.py`). It has the states CLOSED, OPEN and HALF_OPEN and four statistics: failures, successes, last failure time and state changes. Around them are:
  - admission (`_check_state`);
  - failure and success recording;
  - the `_open` / `_half_open` / `_close` transitions;
  - the exit classification of `async with`;
  - the decorator, the synchronous `context`, and the recovery monitor task (its first loop test, each wake from its sleep, and the finish of a cancelled task).

  The breaker is a class whose methods update `state` and `stats`. Each method is proved against a function on a `Snapshot` of those two fields (a `Machine` when the monitor task's phase matters), and the properties are lemmas about those functions and about runs of events.
- **The cache strategies** (`utils/cache_strategies.py`), written against a store object with a key/value map and a map of sorted sets:
  - the tiered read (the compressed key first, then the bare key, otherwise `CacheMiss`);
  - the write, with an adaptive time-to-live (a 300-second floor) and a location index written with twice that TTL;
  - the sliding-window limiter pipeline (prune, count, record, expire);
  - the cache-warming selection.

  Each method is proved equal to a specification function, and the round trips, read order, error paths and limiter bounds are lemmas about those functions.
- **Cache keys and provider ordering** (`core/config.py`). `weather_key` and `forecast_key` are pure string functions. `active_providers` filters the enabled providers and sorts them stably by priority.

The model is organised as follows:
- **Clock and randomness:** the clock is an integer `now` parameter, and `random.random() < 0.7` is a sequence of coins.
- **Transport failures:** one optional fault per store command.
- **Codecs:** gzip, UTF-8 and JSON use symbolic byte strings (module `Codec`), so decompress inverts compress and parsing inverts serializing by construction.

Where the code departs from textbook circuit-breaker and rate-limiter behaviour, the model follows the code:
- **Recovery timer:** it runs from the *last* failure, and the test is a strict `>`. With timeout 60 and failures at t = 0, 1, 2, admissions at t = 61 and 62 are refused and t = 63 is admitted.
- **HALF_OPEN:** every admission is refused, so only the caller that made the OPEN to HALF_OPEN move gets through.
- **Success in HALF_OPEN:** the breaker closes with fresh statistics and then counts the success, ending with one success and one state change.
- **Monitor cancellation:** `_close` only requests it. The cancelled task stays in `_monitor_task` until its next step, and an `_open` before then starts no new task.
- **Limiter count:** the count is taken before the attempt is recorded and compared with a strict `>`. So `max_operations + 1` attempts at distinct instants fit in one window.
- **Limiter record:** a rejected attempt is still recorded, and attempts at the same instant collapse into one member.
- **Stale compressed entry:** it shadows a newer uncompressed write.
- **Warming placeholder:** it is not a valid weather response, so a warmed entry reads back as a miss.

Modules: `Errors` (shared Option/Result and exception kinds), `Config`, `CircuitBreakers`, `Codec`, `KvStore` (the store object) and `CacheStrategies`.

## Model

| member | source | states |
|---|---|---|
| `CircuitBreakers.InitialIsClosed` | utils/circuit_breaker.py:16-21 | A new breaker is CLOSED with zero failures, successes and state changes and no failure time; with no monitor task it satisfies the breaker invariant and the monitor's agreement with the state. |
| `CircuitBreakers.CircuitBreaker.constructor` | utils/circuit_breaker.py:30-57 | Stores the configuration and starts CLOSED with fresh statistics and the invariant established. |
| `CircuitBreakers.Opened` | utils/circuit_breaker.py:118-120 | `_open` makes the breaker OPEN with one more state change and every other statistic kept. |
| `CircuitBreakers.HalfOpened` | utils/circuit_breaker.py:130-132 | `_half_open` makes the breaker HALF_OPEN with one more state change and every other statistic kept. |
| `CircuitBreakers.Reclosed` | utils/circuit_breaker.py:135-138 | `_close` makes the breaker CLOSED with zero failures and successes, no failure time and exactly one state change. |
| `CircuitBreakers.Admit` | utils/circuit_breaker.py:86-99 | Admission succeeds iff CLOSED, or OPEN with strictly more than the recovery timeout since the last failure (or since 0). An admitted breaker is never left OPEN. A refusal is the "is OPEN" error exactly when the breaker was OPEN. |
| `CircuitBreakers.AdmitClosed` | utils/circuit_breaker.py:86-99 | Admission in CLOSED succeeds and changes neither state nor statistics. |
| `CircuitBreakers.AdmitOpen` | utils/circuit_breaker.py:88-95 | In OPEN, an elapsed timer moves to HALF_OPEN with one more state change and all other statistics kept. Otherwise the error carries the failure count and nothing changes. |
| `CircuitBreakers.AdmitHalfOpen` | utils/circuit_breaker.py:96-99 | Admission in HALF_OPEN is always refused with the HALF-OPEN error. |
| `CircuitBreakers.Entered` | utils/circuit_breaker.py:86-99 | An admission attempt never enters or leaves CLOSED, reaches HALF_OPEN only from a state that is not CLOSED, and keeps the failure count and failure time. |
| `CircuitBreakers.SingleProbe` | utils/circuit_breaker.py:88-99 | After an admission turns OPEN into HALF_OPEN, the next admission at any later time is refused. |
| `CircuitBreakers.ThresholdThreeScenario` | utils/circuit_breaker.py:86-116 | With threshold 3, timeout 60 and failures at t = 0, 1, 2, the breaker is OPEN. Admissions at t = 10, 61 and 62 are refused, t = 63 is admitted into HALF_OPEN, and the probe's success closes it with stats (0, 1, None, 1). |
| `CircuitBreakers.AfterFailure` | utils/circuit_breaker.py:101-110 | Recording a failure always adds one failure stamped `now` and keeps the success count. |
| `CircuitBreakers.FailureTransitions` | utils/circuit_breaker.py:101-110 | CLOSED opens iff the new failure count reaches the threshold. HALF_OPEN always re-opens. OPEN stays OPEN without a state change, and its recovery timer restarts at `now`. |
| `CircuitBreakers.AfterSuccess` | utils/circuit_breaker.py:112-116 | After a success the breaker is CLOSED exactly when it was not OPEN, and has at least one success. |
| `CircuitBreakers.SuccessTransitions` | utils/circuit_breaker.py:112-139 | A success in HALF_OPEN yields CLOSED with stats (0 failures, 1 success, no failure time, 1 state change). In any other state it only adds a success, so failures never drop. |
| `CircuitBreakers.AfterExit` | utils/circuit_breaker.py:65-69 | With no exception a success is counted (and a HALF_OPEN breaker's failure time is cleared by the close). With an exception no success is counted; the failure time becomes the exit time iff the exception is expected (or it already was); an unexpected exception leaves the breaker exactly as it was. |
| `CircuitBreakers.MonitorBody` | utils/circuit_breaker.py:149-152 | The loop body moves to HALF_OPEN iff the recovery timer has elapsed, whatever the current state, and keeps failures and the failure time. |
| `CircuitBreakers.Tracked` | utils/circuit_breaker.py:118-142 | After a change of state the monitor task agrees with the new state: none live while CLOSED (`_close` requests its cancellation), and while OPEN a task that is not done, live or with its cancellation pending (`_open` starts one only when the current one is done). Whatever agreement held before a step is kept. |
| `CircuitBreakers.Started` | utils/circuit_breaker.py:127-128 | After `_open` there is a monitor task that is not done. A task that is not done yet, even one whose cancellation is pending, is kept rather than replaced. |
| `CircuitBreakers.CancelRequested` | utils/circuit_breaker.py:141-142 | After `_close` no monitor task is live. A live task now has its cancellation pending and is not yet done; with no task there is still none. |
| `CircuitBreakers.AfterMonitorFinish` | utils/circuit_breaker.py:141-142 | A task whose cancellation is pending takes its next step and is done. The state and statistics do not change, and a task in any other phase is untouched. |
| `CircuitBreakers.AfterContext` | utils/circuit_breaker.py:162-174 | The exit of a `context` block classifies the outcome like `__aexit__`, and never leaves a monitor task live while CLOSED. The monitor task stays as it was or has its cancellation requested; if there was none, there is none after, because `asyncio.run` cancels the task `_open` starts inside it. |
| `CircuitBreakers.AfterMonitorStart` | utils/circuit_breaker.py:146 | The monitor's first loop test changes no state or statistics. A task that has just started goes to sleep in the loop iff the breaker is OPEN and finishes otherwise; a task in any other phase is untouched. |
| `CircuitBreakers.AfterMonitorWake` | utils/circuit_breaker.py:146-152 | A sleeping monitor that wakes applies the loop body, then stays in its loop iff the breaker is OPEN; a monitor that is not asleep changes nothing. |
| `CircuitBreakers.TransitionCounters` | utils/circuit_breaker.py:118-139 | `_open` and `_half_open` add exactly one state change. `_close` yields fresh statistics with exactly one state change. |
| `CircuitBreakers.ExitClassification` | utils/circuit_breaker.py:65-69 | An expected exception records a failure, no exception records a success, and any other exception leaves the breaker unchanged. |
| `CircuitBreakers.StepProperties` | utils/circuit_breaker.py:86-174 | Every admission, exit, `context` exit, monitor start, monitor wake or cancelled monitor finishing preserves the breaker invariant (including: no live monitor task while CLOSED) and follows one of the four legal edges (or stays put). Every step keeps a monitor task that is not done while OPEN, except a `context` exit and a cancelled monitor finishing while OPEN. Every step except a monitor wake updates `state_changes` as intended; a monitor wake does too, or finds the breaker already HALF_OPEN and counts one more state change (see Findings). |
| `CircuitBreakers.RunProperties` | utils/circuit_breaker.py:86-174 | From a reachable breaker and monitor (a new breaker in particular), every run of events stays reachable, and each pair of consecutive states is a legal edge. A run with no `context` exit and no cancelled monitor finishing keeps a monitor task that is not done while OPEN. |
| `CircuitBreakers.CircuitBreaker.CheckState` | utils/circuit_breaker.py:86-99 | Updates the object as `Admit` prescribes: on admission the new state, on refusal the error and no change. Keeps the invariant and the monitor task's agreement with the state. |
| `CircuitBreakers.CircuitBreaker.RecordFailure` | utils/circuit_breaker.py:101-110 | The new state and statistics are `AfterFailure` of the old ones; the invariant is kept. |
| `CircuitBreakers.CircuitBreaker.RecordSuccess` | utils/circuit_breaker.py:112-116 | The new state and statistics are `AfterSuccess` of the old ones; the invariant is kept. |
| `CircuitBreakers.CircuitBreaker.OpenCircuit` | utils/circuit_breaker.py:118-128 | The breaker is OPEN with one more state change, and a monitor task is started unless one is live. |
| `CircuitBreakers.CircuitBreaker.HalfOpenCircuit` | utils/circuit_breaker.py:130-133 | The breaker is HALF_OPEN with one more state change. |
| `CircuitBreakers.CircuitBreaker.CloseCircuit` | utils/circuit_breaker.py:135-142 | The breaker is CLOSED with a fresh statistics record whose state change count is 1. A live monitor task has its cancellation requested and stays the current task. |
| `CircuitBreakers.CircuitBreaker.ExitBlock` | utils/circuit_breaker.py:65-69 | The new state is the exit classification of the old one; the invariant is kept. |
| `CircuitBreakers.CircuitBreaker.MonitorStart` | utils/circuit_breaker.py:146 | The object and its monitor task change as `AfterMonitorStart` prescribes; the invariant is kept. |
| `CircuitBreakers.CircuitBreaker.MonitorWake` | utils/circuit_breaker.py:146-152 | The object and its monitor task change as `AfterMonitorWake` prescribes (the body tests the timer, not the state); the invariant is kept. |
| `CircuitBreakers.CircuitBreaker.MonitorFinish` | utils/circuit_breaker.py:141-142 | The monitor task changes as `AfterMonitorFinish` prescribes, and the invariant is kept. |
| `CircuitBreakers.CircuitBreaker.Call` | utils/circuit_breaker.py:71-84 | A refused call raises the admission error and changes nothing. An admitted call returns the value, raises an expected exception wrapped with its original, or re-raises any other one. The exit classification is applied to the wrapped error, as written. |
| `CircuitBreakers.CircuitBreaker.CallFixed` | utils/circuit_breaker.py:71-84 | The caller sees the same results as with `Call`, but the exit classification is applied to the exception the function actually raised. |
| `CircuitBreakers.CircuitBreaker.Context` | utils/circuit_breaker.py:162-174 | There is no admission check. Outside a running event loop: an expected exception records a failure and is re-raised wrapped, no exception records a success, any other exception propagates and records nothing, and the object and its monitor task end as `AfterContext` prescribes. Inside a running loop nothing is recorded and `RuntimeError` is raised wherever a record was due. The invariant is kept either way. |
| `CircuitBreakers.DecoratorDropsExpectedFailures` | utils/circuit_breaker.py:74-83 | When `expected_exceptions` does not cover `CircuitBreakerError`, an expected failure inside the decorator leaves the breaker unchanged. |
| `CircuitBreakers.DecoratorCounterexample` | utils/circuit_breaker.py:74-83 | With threshold 1 and `(ConnectionError,)` expected, a decorated call raising `ConnectionError` leaves a new breaker CLOSED with no failure counted. |
| `CircuitBreakers.DecoratorFixedCountsExpectedFailures` | utils/circuit_breaker.py:65-69 | Classifying the original exception records the failure, and trips a CLOSED breaker at the threshold. |
| `CircuitBreakers.MonitorStrandsHalfOpen` | utils/circuit_breaker.py:144-152 | A sleeping monitor that wakes after the timer elapses yields HALF_OPEN, which refuses every admission at every time. Through any sequence of admissions and monitor events without an exit, the breaker stays exactly as the monitor left it. |
| `CircuitBreakers.MonitorCountsHalfOpenTwice` | utils/circuit_breaker.py:144-152 | With timeout 30 and the breaker OPEN since t = 0 with its monitor asleep, an admission at t = 31 moves to HALF_OPEN (2 state changes) and the monitor waking at t = 35 calls `_half_open` again (3 state changes), breaking the intended count. |
| `CircuitBreakers.ContextLeavesOpenUnmonitored` | utils/circuit_breaker.py:162-174 | With threshold 1, one expected failure trips a new breaker through `context` or through `async with` alike, but only the latter leaves a monitor task; after `context` the breaker is OPEN with no monitor. |
| `CircuitBreakers.CloseThenOpenLeavesOpenUnmonitored` | utils/circuit_breaker.py:127-142 | Threshold 1, timeout 30. Two calls are admitted at t = 0, and the second fails and trips the breaker; the monitor goes to sleep. A probe is admitted at t = 100 and succeeds, so `_close` requests the monitor's cancellation. The first call then fails, so `_open` starts no new task. When the cancelled task finishes, the breaker is OPEN with no monitor. |
| `CircuitBreakers.TrackedFixed` | utils/circuit_breaker.py:118-142 | With `_close` also dropping the cancelled task, no task with a pending cancellation ever arises. After a change of state the monitor agrees with the new state, and agreement is kept. |
| `CircuitBreakers.RunFixedKeepsMonitor` | utils/circuit_breaker.py:118-152 | With the corrected `_close`, every run without `context` exits, monitor steps included, keeps a monitor task while OPEN and none live while CLOSED. |
| `CircuitBreakers.CloseThenOpenFixed` | utils/circuit_breaker.py:127-142 | On the same trace, the corrected `_close` drops the sleeping monitor, and the later failure starts a new one. The breaker ends OPEN and monitored. |
| `CircuitBreakers.MonitorWakeFixedCountsOnce` | utils/circuit_breaker.py:144-152 | With the body guarded by OPEN, every monitor wake keeps the invariant, follows a legal edge and counts its state change as intended, and agrees with the written body whenever the breaker is OPEN. |
| `CircuitBreakers.MonitorThenOneProbe` | utils/circuit_breaker.py:144-152 | With a probe slot, the first admission after the monitor's move to HALF_OPEN is let through as the probe and the next is refused. |
| `CircuitBreakers.AdmitFixedAgrees` | utils/circuit_breaker.py:86-99 | Whenever HALF_OPEN was entered by an admission, the corrected admission matches `_check_state` in its outcome, its new state and its error. |
| `Config.Lower` | core/config.py:151 | Lower-casing keeps the length and lower-cases each character (ASCII). |
| `Config.LowerIdempotent` | core/config.py:150-155 | Lower-casing twice is lower-casing once. |
| `Config.WeatherKey` | core/config.py:149-151 | The key is the weather prefix followed by the lower-cased location, and has their combined length. |
| `Config.ForecastKey` | core/config.py:153-155 | The key is the forecast prefix followed by the lower-cased location, and has their combined length. |
| `Config.WeatherKeySameIff` | core/config.py:149-151 | Two locations share a weather key iff they agree after lower-casing. |
| `Config.ForecastKeySameIff` | core/config.py:153-155 | Two locations share a forecast key iff they agree after lower-casing. |
| `Config.WeatherKeyOfLowered` | core/config.py:150-155 | Keys are case-insensitive: the key of the lower-cased location is the key of the location. |
| `Config.KeyFamiliesDisjoint` | core/config.py:144-147 | A weather key is never a forecast key, and a location key is never a weather key, with or without a suffix. |
| `Config.LocationKey` | utils/cache_strategies.py:92 | The index key is the location prefix followed by the location, and has their combined length. |
| `Config.LocationKeyInjective` | utils/cache_strategies.py:91-92 | The location index key determines its argument. |
| `Config.FilterEnabled` | core/config.py:135 | The filtered list holds each provider whose `enabled` is missing or true, with its multiplicity, and no other provider. |
| `Config.FilterEnabledAppend` | core/config.py:135 | Filtering a concatenation filters each part and concatenates the results, so the comprehension keeps the input order. |
| `Config.FilterEnabledSingle` | core/config.py:135 | A one-provider list is kept exactly when the provider is enabled. |
| `Config.FilterOfPriority` | core/config.py:135 | Taking the providers of one priority commutes with filtering. |
| `Config.SortByPriority` | core/config.py:136 | The sort is a permutation, ordered by non-decreasing priority. |
| `Config.SortStable` | core/config.py:136 | Providers of equal priority keep their relative order. |
| `Config.ActiveProvidersSpec` | core/config.py:135-136 | `active_providers` contains exactly the enabled providers (as a multiset and by membership), sorted by priority. The providers of each priority are the enabled ones of that priority in their input order. |
| `Config.ActiveProviders` | core/config.py:135-136 | Each provider occurs in the result as often as in the input if it is enabled and not at all otherwise, and the result is ordered by priority. |
| `Config.ActiveProvidersOfSorted` | core/config.py:135-136 | An all-enabled list already in priority order is its own `active_providers`. |
| `Config.DefaultActiveProviders` | core/config.py:115-136 | With the built-in provider list, `active_providers` is that list unchanged, whatever the API keys. |
| `Codec.CodecRoundTrip` | utils/cache_strategies.py:37-40 | Decompressing a compressed value gives it back. Decoding an encoded document gives it back. A valid weather document parses to itself. |
| `CacheStrategies.EffectiveTtl` | utils/cache_strategies.py:72-77 | The TTL is the caller's unless the data is a dict with a current timestamp. On that path it is at least 300 and at least `ttl - age`, and it equals one of the two. |
| `CacheStrategies.EffectiveTtlCanExceedTtl` | utils/cache_strategies.py:77 | With a fresh timestamp and `ttl = 60`, the effective TTL is 300, above the caller's. |
| `CacheStrategies.TieredRead` | utils/cache_strategies.py:31-49 | A successful read yields a document that validates as a weather response. |
| `CacheStrategies.ReadPrefersCompressed` | utils/cache_strategies.py:33-40 | A truthy compressed entry decides the read by itself, and the bare key's content cannot change the result. |
| `CacheStrategies.ReadFallsBack` | utils/cache_strategies.py:42-49 | Without a truthy compressed entry, a truthy bare entry is decoded; otherwise the block raises `CacheMiss`. |
| `CacheStrategies.GetSpec` | utils/cache_strategies.py:24-55 | Whatever `get_cached_weather` returns is a valid weather document. |
| `CacheStrategies.FailuresAreMisses` | utils/cache_strategies.py:49-55 | A refusal gives "service unavailable" with the breaker untouched. A `CircuitBreakerError` raised by the store also gives "service unavailable". Any other store error, corrupt data or an empty cache gives "read failed". Both are classified at the exit. The result is "service unavailable" iff refused or the store raised `CircuitBreakerError`. A hit happens iff admitted and the read succeeded. |
| `CacheStrategies.MissOf` | utils/cache_strategies.py:50-55 | A failure inside the read block becomes "service unavailable" exactly when it is a `CircuitBreakerError`, and "read failed" otherwise. |
| `CacheStrategies.MissCountsNothing` | utils/cache_strategies.py:12-55 | With both keys absent, the result is a miss, and the cache breaker is left exactly as admission left it. |
| `CacheStrategies.SetSpec` | utils/cache_strategies.py:57-102 | The write only ever adds the payload key of the chosen tier and the index key to the store. On success both are present; on failure the store is either unchanged or holds only the new payload. |
| `CacheStrategies.SetSucceeds` | utils/cache_strategies.py:67-99 | The write returns true iff it was admitted, the effective TTL is positive and both writes succeed. Then the breaker is CLOSED with the success counted, and the store holds exactly the payload under the chosen tier's key and the index record with twice the TTL. |
| `CacheStrategies.SetFailurePaths` | utils/cache_strategies.py:67-102 | A refused write changes nothing and returns false. A failed payload write, or one the store refuses with `ResponseError` for a time-to-live that is not positive, returns false, writes nothing and classifies the error at exit. A failed index write returns false, classifies its error at exit and leaves the payload written, with no rollback. |
| `CacheStrategies.RoundTripCompressed` | utils/cache_strategies.py:79-83 | After a successful compressed write of a valid document, a read of any spelling that agrees after lower-casing returns that document. |
| `CacheStrategies.RoundTripUncompressed` | utils/cache_strategies.py:84-88 | After a successful uncompressed write, the read returns the document unless a truthy compressed entry was already there. If one was, the read decodes that stale entry. |
| `CacheStrategies.WarmedEntryReadsAsMiss` | utils/cache_strategies.py:127-135 | A successfully warmed placeholder reads back as "read failed", and the cache breaker is left unchanged. |
| `CacheStrategies.CacheStrategy.ReadBlock` | utils/cache_strategies.py:33-48 | The body of the read block returns exactly the tiered read of the current store: the compressed key first, then the bare key, otherwise a miss, with store faults passed through. |
| `CacheStrategies.CacheStrategy.GetCachedWeather` | utils/cache_strategies.py:23-55 | Result and new breaker state are those of the read specification, with admission at the entry time and the exit classified at the exit time; the breaker invariant and its monitor's agreement with the state are kept. |
| `CacheStrategies.CacheStrategy.SetCachedWeather` | utils/cache_strategies.py:57-102 | Result, new breaker state and new key/value map are those of the write specification, with the clock read separately at admission, for the index record and at exit; the sorted sets are unchanged and the monitor agrees with the state. |
| `CacheStrategies.CacheStrategy.AsyncWarmLocation` | utils/cache_strategies.py:126-135 | Writes the placeholder with the default TTL and compression, exactly as the write specification, never raises, and leaves the sorted sets alone. |
| `CacheStrategies.CacheStrategy.SlidingWindowCache` | utils/cache_strategies.py:137-164 | A failed pipeline changes nothing and re-raises. Otherwise the key holds the pruned members plus `now`, with expiry `window_size` (a window that is not positive deletes the key). The operation runs iff the pruned count is at most `max_operations`; otherwise the call is rate-limited. |
| `CacheStrategies.LimiterDecision` | utils/cache_strategies.py:150-159 | Every attempt is recorded, allowed or not. The window grows by at most one. After an allowed attempt it holds at most `max_operations + 1` members, all of them `now` or earlier members. |
| `CacheStrategies.EqualTimestampsCollapse` | utils/cache_strategies.py:154 | A second attempt at the same instant leaves the window unchanged, and its count already includes the first. |
| `CacheStrategies.BurstDecisions` | utils/cache_strategies.py:150-161 | For attempts at increasing times within one window, over earlier members inside that window, attempt `i` is allowed iff the earlier members plus `i` do not exceed `max_operations`. |
| `CacheStrategies.BurstAdmitsOneMoreThanMax` | utils/cache_strategies.py:158-159 | On a fresh key, exactly the first `max_operations + 1` attempts within one window are allowed. |
| `CacheStrategies.WarmTargets` | utils/cache_strategies.py:118-122 | The scheduled names are a prefix of the names of the entries whose coin was true, in order: one warm at most per chosen entry, and each scheduled name is that of a chosen entry. |
| `CacheStrategies.WarmTargetsAllNamed` | utils/cache_strategies.py:118-122 | When every entry has a name, exactly the names of the entries whose coin is true are scheduled, in order. |
| `CacheStrategies.WarmCacheForPopularLocations` | utils/cache_strategies.py:112-124 | Only the first three nearby entries are considered, and at most three warms are scheduled. If the location lookup fails, nothing is scheduled and nothing is raised. |

## Left out

- Redis transport: the network, connection handling, and keys expiring as time passes. Time-to-lives are recorded but never elapse. A command either applies or fails with a given transport fault. A timeout after the server applied a write is not modelled.
- The pipeline (`utils/cache_strategies.py:150-156`) is modelled as one unit that applies all four commands or none.
- Concurrency: the `asyncio.Lock` is read as "each method runs atomically". The monitor task is modelled by its phase (none or done, started, asleep, cancellation pending); its start, each wake and the finish of a cancelled task are events that can interleave with admissions and exits at any point, so the five-second sleep is not timed. Task creation for warming is left out.
- CacheStrategies.CacheStrategy.GetCachedWeather, CacheStrategies.CacheStrategy.SetCachedWeather and CacheStrategies.CacheStrategy.AsyncWarmLocation: each runs as one step. Other callers that enter or leave the same breaker, or write the same keys, between its admission, its store commands and its exit (at the `await`s) are not modelled; the clock is read separately at those points.
- Logging is left out everywhere.
- Clock and randomness: `time.time()`, `datetime.utcnow()` and `random.random()` are parameters: an integer `now` and a coin per entry.
- Floating point: timestamps and ages are whole seconds, so `int(data_age)` truncation and float limiter members are not modelled. Two attempts in the same second collapse in the model, while in the source they would need the same float timestamp.
- CacheStrategies.EffectiveTtl: the timestamp is given as seconds. Parsing it with `datetime.fromisoformat`, and the exception a malformed timestamp raises, are not modelled.
- Config.Lower: lower-cases ASCII letters only, not full Unicode `str.lower`.
- CircuitBreakers.CircuitBreaker.Context: the never-awaited coroutine left by a refused `asyncio.run` is not modelled.
- Config.FilterEnabled: `enabled` is missing, true or false. Python truthiness of other values (`None`, `0`, `""` count as disabled) is not modelled.
- gzip, UTF-8, JSON and pydantic are modelled symbolically. A document is either a valid weather response or not, and escaping inside the warming placeholder's JSON text is not modelled.
- `models/weather.py` (the response schemas and their float bounds) is not part of this model. The placeholder `{"location": ..., "temp": 20.5}` is taken to fail weather-response validation because required fields are missing.
- `get_state` / `get_stats` are left out: they return the live objects, and the aliasing this allows is not modelled.
- The mock `LocationService` is left out: its result is the `nearby` input of `WarmCacheForPopularLocations`, or `None` when the lookup raises.
- CacheStrategies.WarmCacheForPopularLocations: the loop ends when an entry without a name has its coin drawn true. `KeyError` is raised there and swallowed, as in the source.
- `CacheKeys.location_key`, called at `utils/cache_strategies.py:92`, does not exist in `core/config.py`. It is modelled as the location prefix followed by its argument.
- `utils/cache_strategies.py` as written does not run:
  - the `setex(` call opened at line 80 is never closed;
  - `CircuitBreaker` and `Callable` are not imported.

  The model follows the evident intent. The unused `extended` parameter (line 26) is dropped.
- Settings, the HTTP routes, the application setup and the tests are outside this model.

## Findings

| source | as written | input that shows it | evidently intended | confidence | as-written member | corrected member |
|---|---|---|---|---|---|---|
| utils/circuit_breaker.py:74-83 | The decorator turns an expected exception into `CircuitBreakerError` inside `async with self`, so `__aexit__` classifies the wrapper, not the original. | A breaker with threshold 1 and `expected_exceptions=(ConnectionError,)`, whose decorated function raises `ConnectionError`: the breaker stays CLOSED with 0 failures. | An expected failure of a decorated call is counted and trips the breaker at the threshold. | medium; not executed. The breakers in this repository are used through `async with`, and `weather_circuit_breaker` lists `Exception`, which hides the defect. | `CircuitBreakers.DecoratorDropsExpectedFailures` | `CircuitBreakers.DecoratorFixedCountsExpectedFailures` |
| utils/circuit_breaker.py:144-152 | The monitor moves OPEN to HALF_OPEN without admitting anyone, and `_check_state` refuses every admission in HALF_OPEN. | An OPEN breaker whose recovery timer has elapsed, before any caller arrives: once the sleeping monitor wakes it is HALF_OPEN, and every later admission is refused until an earlier call exits. | The move to HALF_OPEN lets one probe call through. | medium; not executed | `CircuitBreakers.MonitorStrandsHalfOpen` | `CircuitBreakers.MonitorThenOneProbe` |
| utils/circuit_breaker.py:127-142 | `_close` only requests the monitor's cancellation and leaves the task in `_monitor_task`. `_open` starts a new task only when that one is done, and a cancelled task is not done until its next step. | Threshold 1, timeout 30. Calls A and B are admitted at t = 0, and B fails and trips the breaker; the monitor sleeps. Probe C is admitted at t = 100 and succeeds. A then fails before the cancelled monitor's next step. The breaker ends OPEN with no monitor task. | Every move to OPEN leaves a running monitor task. | medium; not executed | `CircuitBreakers.CloseThenOpenLeavesOpenUnmonitored` | `CircuitBreakers.RunFixedKeepsMonitor` |
| utils/circuit_breaker.py:146-152 | The monitor tests the state only at its loop head, before the sleep; after the sleep its body tests only the timer and calls `_half_open`. | Timeout 30, the breaker OPEN since a failure at t = 0 with the monitor asleep; an admission at t = 31 moves it to HALF_OPEN (state changes 1 to 2); the monitor wakes at t = 35 and calls `_half_open` again (2 to 3) with no change of state. | The monitor moves the breaker only while it is OPEN, and one move to HALF_OPEN counts one state change. | medium; not executed | `CircuitBreakers.MonitorCountsHalfOpenTwice` | `CircuitBreakers.MonitorWakeFixedCountsOnce` |

=== FILE: cache_strategies.dfy ===
/** The cache strategies: the tiered read, the write with adaptive time-to-live and the
    location index, the sliding-window limiter, and cache warming.  Each operation runs
    under the cache's circuit breaker (except the limiter) against the store; the clock is
    the `now` parameter and store transport failures are the `faults` input, one entry per
    store command of the operation in the order the commands are issued. */
module CacheStrategies {
  import opened Errors
  import opened Config
  import opened Codec
  import opened KvStore
  import opened CircuitBreakers

  const CompressedSuffix: string := ":compressed"
  /** The floor of the adaptive time-to-live ("minimum 5 minutes"). */
  const MinimumTtl: int := 300
  /** The default `ttl` of `set_cached_weather`. */
  const DefaultTtl: int := 3600

  /** `cache_circuit_breaker`: threshold 3, recovery 30 s, counting only
      `ConnectionError` and `TimeoutError`. */
  const CacheBreakerConfig: BreakerConfig := BreakerConfig(3, 30, {ConnectionError, TimeoutError})

  /** The key of the compressed tier. */
  function CompressedKey(location: string): string
  {
    WeatherKey(location) + CompressedSuffix
  }

  /** `CacheMiss`, by message: the breaker refused ("Cache service unavailable"), or any
      other failure inside the block, an absent entry included ("Cache read failed"). */
  datatype CacheMiss = ServiceUnavailable | ReadFailed

  /** The data handed to `set_cached_weather`: a pydantic model instance, or a plain dict
      together with its `current.timestamp` when that is present and truthy (as seconds). */
  datatype WeatherData =
    | ResponseModel(doc: Doc)
    | PlainDict(doc: Doc, currentTimestamp: Option<int>)

  /** `data.json()` or `json.dumps(data)`. */
  function Serialize(data: WeatherData): Doc
  {
    data.doc
  }

  predicate HasTimestamp(data: WeatherData)
  {
    data.PlainDict? && data.currentTimestamp.Some?
  }

  /** The adaptive time-to-live: the caller's `ttl`, unless the data is a dict with a
      current timestamp; then `ttl` less the data's age, but never below 300 seconds. */
  function EffectiveTtl(data: WeatherData, ttl: int, now: int): (r: int)
    ensures !HasTimestamp(data) ==> r == ttl
    ensures HasTimestamp(data) ==> r >= MinimumTtl
    ensures HasTimestamp(data) ==> r >= ttl - (now - data.currentTimestamp.value)
    ensures HasTimestamp(data) ==> r == MinimumTtl || r == ttl - (now - data.currentTimestamp.value)
  {
    match data
    case PlainDict(_, Some(ts)) =>
      var age := now - ts;
      if MinimumTtl >= ttl - age then MinimumTtl else ttl - age
    case _ => ttl
  }

  /** On the timestamp path the floor can lift the time-to-live above the caller's. */
  lemma EffectiveTtlCanExceedTtl(doc: Doc, now: int)
    ensures EffectiveTtl(PlainDict(doc, Some(now)), 60, now) == MinimumTtl
    ensures EffectiveTtl(PlainDict(doc, Some(now)), 60, now) > 60
  {
  }

  /** The store command `i` of an operation fails with `faults[i]`, if given. */
  function FaultAt(faults: seq<Option<ErrorKind>>, i: nat): Option<ErrorKind>
  {
    if i < |faults| then faults[i] else None
  }

  // ---------------------------------------------------------------------------
  // Reading

  /** `WeatherResponse.parse_raw(gzip.decompress(b).decode('utf-8'))`. */
  function DecodeCompressed(b: Bytes): (r: Result<Doc, ErrorKind>)
    ensures r.Ok? ==> r.value.WeatherJson?
  {
    match Decompress(b)
    case Err(k) => Err(k)
    case Ok(inner) =>
      match DecodeUtf8(inner)
      case Err(k) => Err(k)
      case Ok(d) => ParseWeatherResponse(d)
  }

  /** `WeatherResponse.parse_raw(b.decode('utf-8'))`. */
  function DecodePlain(b: Bytes): (r: Result<Doc, ErrorKind>)
    ensures r.Ok? ==> r.value.WeatherJson?
  {
    match DecodeUtf8(b)
    case Err(k) => Err(k)
    case Ok(d) => ParseWeatherResponse(d)
  }

  /** The body of the `async with` block of `get_cached_weather`: the document read, or
      the exception that leaves the block (`CacheMiss` when both tiers are empty). */
  function TieredRead(kv: map<string, Entry>, location: string, faults: seq<Option<ErrorKind>>)
    : (r: Result<Doc, ErrorKind>)
    ensures r.Ok? ==> r.value.WeatherJson?
  {
    match StoreGet(kv, CompressedKey(location), FaultAt(faults, 0))
    case Err(k) => Err(k)
    case Ok(c) =>
      if c.Some? && Truthy(c.value) then DecodeCompressed(c.value)
      else
        match StoreGet(kv, WeatherKey(location), FaultAt(faults, 1))
        case Err(k) => Err(k)
        case Ok(u) =>
          if u.Some? && Truthy(u.value) then DecodePlain(u.value)
          else Err(CacheMissError)
  }

  datatype GetOutcome = GetOutcome(result: Result<Doc, CacheMiss>, breaker: Snapshot)

  /** The `CacheMiss` a failure inside the read block becomes: the first handler catches a
      `CircuitBreakerError` (raised by the store itself) as "service unavailable", the
      second everything else as "read failed". */
  function MissOf(k: ErrorKind): (r: CacheMiss)
    ensures r == ServiceUnavailable <==> k == ErrorKind.CircuitBreakerError
  {
    if k == ErrorKind.CircuitBreakerError then ServiceUnavailable else ReadFailed
  }

  /** `get_cached_weather`: admission at `enterNow`, the tiered read, the exit
      classification at `exitNow` (after the reads), and every failure turned into a
      `CacheMiss`. */
  function GetSpec(s: Snapshot, cfg: BreakerConfig, kv: map<string, Entry>, location: string,
                   enterNow: int, exitNow: int, faults: seq<Option<ErrorKind>>): (r: GetOutcome)
    ensures r.result.Ok? ==> r.result.value.WeatherJson?
  {
    match Admit(s, cfg.recoveryTimeout, enterNow)
    case Refused(_) => GetOutcome(Err(ServiceUnavailable), s)
    case Admitted(next) =>
      match TieredRead(kv, location, faults)
      case Ok(d) => GetOutcome(Ok(d), AfterExit(next, cfg, None, exitNow))
      case Err(k) => GetOutcome(Err(MissOf(k)), AfterExit(next, cfg, Some(k), exitNow))
  }

  // ---------------------------------------------------------------------------
  // Writing

  datatype SetOutcome = SetOutcome(ok: bool, breaker: Snapshot, kv: map<string, Entry>)

  /** Where the payload goes and in which form. */
  function PayloadKey(location: string, compress: bool): string
  {
    if compress then CompressedKey(location) else WeatherKey(location)
  }

  function Payload(data: WeatherData, compress: bool): Bytes
  {
    if compress then Compress(Utf8(Serialize(data))) else Utf8(Serialize(data))
  }

  /** The location index entry: its key and the record naming the bare weather key. */
  function IndexKey(location: string): string
  {
    LocationKey(Lower(location))
  }

  function IndexRecord(location: string, now: int): Bytes
  {
    Utf8(LocationIndexJson(WeatherKey(location), now))
  }

  /** The instants `set_cached_weather` reads the clock at: admission and the data's age
      (before any store command), the index record's `last_updated` (after the payload
      write), and the exit classification (after the index write). */
  datatype WriteClock = WriteClock(enter: int, index: int, exit: int)

  /** `set_cached_weather`: admission, the payload write, the location index write with
      twice the time-to-live, the exit classification; `False` on any exception.  Keys are
      only ever added or overwritten. */
  function SetSpec(s: Snapshot, cfg: BreakerConfig, kv: map<string, Entry>, location: string,
                   data: WeatherData, ttl: int, compress: bool, clock: WriteClock,
                   faults: seq<Option<ErrorKind>>): (r: SetOutcome)
    ensures kv.Keys <= r.kv.Keys <= kv.Keys + {PayloadKey(location, compress), IndexKey(location)}
    ensures r.ok ==> r.kv.Keys == kv.Keys + {PayloadKey(location, compress), IndexKey(location)}
    ensures !r.ok ==>
      r.kv == kv
      || r.kv == kv[PayloadKey(location, compress) := Entry(Payload(data, compress), EffectiveTtl(data, ttl, clock.enter))]
  {
    match Admit(s, cfg.recoveryTimeout, clock.enter)
    case Refused(_) => SetOutcome(false, s, kv)
    case Admitted(next) =>
      var eff := EffectiveTtl(data, ttl, clock.enter);
      match StoreSetex(kv, PayloadKey(location, compress), eff, Payload(data, compress), FaultAt(faults, 0))
      case Err(k) => SetOutcome(false, AfterExit(next, cfg, Some(k), clock.exit), kv)
      case Ok(kv1) =>
        match StoreSetex(kv1, IndexKey(location), eff * 2, IndexRecord(location, clock.index), FaultAt(faults, 1))
        case Err(k) => SetOutcome(false, AfterExit(next, cfg, Some(k), clock.exit), kv1)
        case Ok(kv2) => SetOutcome(true, AfterExit(next, cfg, None, clock.exit), kv2)
  }

  // ---------------------------------------------------------------------------
  // Properties of reading and writing

  lemma KeysDistinct(location: string, other: string)
    ensures CompressedKey(location) != WeatherKey(location)
    ensures IndexKey(other) != CompressedKey(location) && IndexKey(other) != WeatherKey(location)
  {
    assert |CompressedKey(location)| > |WeatherKey(location)|;
    KeyFamiliesDisjoint(Lower(other), location, CompressedSuffix);
    KeyFamiliesDisjoint(Lower(other), location, []);
    assert WeatherKey(location) + [] == WeatherKey(location);
  }

  /** Locations that agree after lower-casing read and write the same keys. */
  lemma SameKeys(a: string, b: string)
    requires Lower(a) == Lower(b)
    ensures WeatherKey(a) == WeatherKey(b) && CompressedKey(a) == CompressedKey(b)
  {
    WeatherKeySameIff(a, b);
  }

  /** `set_cached_weather` returns `True` exactly when the breaker admits the call, the
      effective time-to-live is positive and both writes go through; the breaker is then
      CLOSED with the success counted, and the store holds the payload under the chosen
      tier's key and the index record with twice the time-to-live, and nothing else
      changed. */
  lemma SetSucceeds(s: Snapshot, cfg: BreakerConfig, kv: map<string, Entry>, location: string,
                    data: WeatherData, ttl: int, compress: bool, clock: WriteClock,
                    faults: seq<Option<ErrorKind>>)
    ensures var o := SetSpec(s, cfg, kv, location, data, ttl, compress, clock, faults);
      o.ok <==> Admit(s, cfg.recoveryTimeout, clock.enter).Admitted? && EffectiveTtl(data, ttl, clock.enter) > 0
                && FaultAt(faults, 0).None? && FaultAt(faults, 1).None?
    ensures var o := SetSpec(s, cfg, kv, location, data, ttl, compress, clock, faults);
      var eff := EffectiveTtl(data, ttl, clock.enter);
      o.ok ==>
        && o.breaker.state == Closed
        && o.breaker == AfterSuccess(Admit(s, cfg.recoveryTimeout, clock.enter).next)
        && o.kv == kv[PayloadKey(location, compress) := Entry(Payload(data, compress), eff)]
                     [IndexKey(location) := Entry(IndexRecord(location, clock.index), 2 * eff)]
  {
  }

  /** A refused admission writes nothing and returns `False`; a failed payload write
      returns `False`, writes nothing and counts as a failure exactly for an expected
      exception; so does a payload write the store refuses for a time-to-live that is not
      positive (`ResponseError`); a failure of the index write returns `False`, leaves the
      payload written (there is no rollback) and is classified like the others. */
  lemma SetFailurePaths(s: Snapshot, cfg: BreakerConfig, kv: map<string, Entry>, location: string,
                        data: WeatherData, ttl: int, compress: bool, clock: WriteClock,
                        faults: seq<Option<ErrorKind>>)
    ensures Admit(s, cfg.recoveryTimeout, clock.enter).Refused? ==>
      SetSpec(s, cfg, kv, location, data, ttl, compress, clock, faults) == SetOutcome(false, s, kv)
    ensures Admit(s, cfg.recoveryTimeout, clock.enter).Admitted? && FaultAt(faults, 0).Some? ==>
      SetSpec(s, cfg, kv, location, data, ttl, compress, clock, faults)
        == SetOutcome(false, AfterExit(Admit(s, cfg.recoveryTimeout, clock.enter).next, cfg, FaultAt(faults, 0), clock.exit), kv)
    ensures Admit(s, cfg.recoveryTimeout, clock.enter).Admitted? && FaultAt(faults, 0).None?
            && EffectiveTtl(data, ttl, clock.enter) <= 0 ==>
      SetSpec(s, cfg, kv, location, data, ttl, compress, clock, faults)
        == SetOutcome(false, AfterExit(Admit(s, cfg.recoveryTimeout, clock.enter).next, cfg, Some(ResponseError), clock.exit), kv)
    ensures Admit(s, cfg.recoveryTimeout, clock.enter).Admitted? && EffectiveTtl(data, ttl, clock.enter) > 0
            && FaultAt(faults, 0).None? && FaultAt(faults, 1).Some? ==>
      var o := SetSpec(s, cfg, kv, location, data, ttl, compress, clock, faults);
      && !o.ok
      && o.breaker == AfterExit(Admit(s, cfg.recoveryTimeout, clock.enter).next, cfg, FaultAt(faults, 1), clock.exit)
      && o.kv == kv[PayloadKey(location, compress) := Entry(Payload(data, compress), EffectiveTtl(data, ttl, clock.enter))]
  {
  }

  /** Read order: a truthy compressed entry decides the read on its own; the bare key is
      not consulted, whatever it holds. */
  lemma ReadPrefersCompressed(kv: map<string, Entry>, location: string, faults: seq<Option<ErrorKind>>, e: Entry)
    requires CompressedKey(location) in kv && Truthy(kv[CompressedKey(location)].value)
    requires FaultAt(faults, 0).None?
    ensures TieredRead(kv, location, faults) == DecodeCompressed(kv[CompressedKey(location)].value)
    ensures TieredRead(kv[WeatherKey(location) := e], location, faults) == TieredRead(kv, location, faults)
  {
    KeysDistinct(location, location);
  }

  /** Read order: without a truthy compressed entry the bare key is read, and without a
      truthy bare entry either the block raises `CacheMiss`. */
  lemma ReadFallsBack(kv: map<string, Entry>, location: string, faults: seq<Option<ErrorKind>>)
    requires CompressedKey(location) !in kv || !Truthy(kv[CompressedKey(location)].value)
    requires FaultAt(faults, 0).None? && FaultAt(faults, 1).None?
    ensures WeatherKey(location) in kv && Truthy(kv[WeatherKey(location)].value) ==>
      TieredRead(kv, location, faults) == DecodePlain(kv[WeatherKey(location)].value)
    ensures !(WeatherKey(location) in kv && Truthy(kv[WeatherKey(location)].value)) ==>
      TieredRead(kv, location, faults) == Err(CacheMissError)
  {
  }

  /** With both tiers empty the read is a `CacheMiss`; for the cache's own breaker that
      counts neither as a failure nor as a success. */
  lemma MissCountsNothing(s: Snapshot, kv: map<string, Entry>, location: string, enterNow: int, exitNow: int,
                          faults: seq<Option<ErrorKind>>)
    requires CompressedKey(location) !in kv && WeatherKey(location) !in kv
    requires FaultAt(faults, 0).None? && FaultAt(faults, 1).None?
    requires Admit(s, CacheBreakerConfig.recoveryTimeout, enterNow).Admitted?
    ensures GetSpec(s, CacheBreakerConfig, kv, location, enterNow, exitNow, faults)
         == GetOutcome(Err(ReadFailed), Admit(s, CacheBreakerConfig.recoveryTimeout, enterNow).next)
  {
  }

  /** Every failure surfaces as a `CacheMiss`: a refusal as "service unavailable" with the
      breaker untouched; a `CircuitBreakerError` raised by the store as "service
      unavailable" too, and any other store error, corrupt data or an empty cache as "read
      failed", both counted as a failure (stamped at the exit) exactly for an expected
      exception. */
  lemma FailuresAreMisses(s: Snapshot, cfg: BreakerConfig, kv: map<string, Entry>, location: string,
                          enterNow: int, exitNow: int, faults: seq<Option<ErrorKind>>)
    ensures Admit(s, cfg.recoveryTimeout, enterNow).Refused? ==>
      GetSpec(s, cfg, kv, location, enterNow, exitNow, faults) == GetOutcome(Err(ServiceUnavailable), s)
    ensures Admit(s, cfg.recoveryTimeout, enterNow).Admitted? && TieredRead(kv, location, faults).Err? ==>
      GetSpec(s, cfg, kv, location, enterNow, exitNow, faults)
        == GetOutcome(Err(MissOf(TieredRead(kv, location, faults).error)),
                      AfterExit(Admit(s, cfg.recoveryTimeout, enterNow).next, cfg,
                                Some(TieredRead(kv, location, faults).error), exitNow))
    ensures GetSpec(s, cfg, kv, location, enterNow, exitNow, faults).result == Err(ServiceUnavailable) <==>
      Admit(s, cfg.recoveryTimeout, enterNow).Refused?
      || TieredRead(kv, location, faults) == Err(ErrorKind.CircuitBreakerError)
    ensures GetSpec(s, cfg, kv, location, enterNow, exitNow, faults).result.Ok? <==>
      Admit(s, cfg.recoveryTimeout, enterNow).Admitted? && TieredRead(kv, location, faults).Ok?
  {
  }

  /** Round trip: after `set_cached_weather(loc, d)` with compression returns `True`, a
      later read of any spelling of `loc` that agrees after lower-casing returns the parsed
      serialization of `d`, provided `d` validates as a WeatherResponse and the first read
      command does not fail in transport. */
  lemma RoundTripCompressed(s: Snapshot, cfg: BreakerConfig, kv: map<string, Entry>, location: string,
                            data: WeatherData, ttl: int, clock: WriteClock, faults: seq<Option<ErrorKind>>,
                            spelling: string, readEnter: int, readExit: int, readFaults: seq<Option<ErrorKind>>)
    requires SetSpec(s, cfg, kv, location, data, ttl, true, clock, faults).ok
    requires Serialize(data).WeatherJson?
    requires Lower(spelling) == Lower(location)
    requires FaultAt(readFaults, 0).None?
    ensures var o := SetSpec(s, cfg, kv, location, data, ttl, true, clock, faults);
      GetSpec(o.breaker, cfg, o.kv, spelling, readEnter, readExit, readFaults).result == Ok(Serialize(data))
  {
    var o := SetSpec(s, cfg, kv, location, data, ttl, true, clock, faults);
    SetSucceeds(s, cfg, kv, location, data, ttl, true, clock, faults);
    SameKeys(spelling, location);
    KeysDistinct(location, location);
    assert o.kv[CompressedKey(spelling)].value == Compress(Utf8(Serialize(data)));
    CodecRoundTrip(Utf8(Serialize(data)), Serialize(data));
  }

  /** Round trip without compression holds only when no truthy compressed entry is left
      for the location: a stale compressed entry shadows the new uncompressed one. */
  lemma RoundTripUncompressed(s: Snapshot, cfg: BreakerConfig, kv: map<string, Entry>, location: string,
                              data: WeatherData, ttl: int, clock: WriteClock, faults: seq<Option<ErrorKind>>,
                              readEnter: int, readExit: int, readFaults: seq<Option<ErrorKind>>)
    requires SetSpec(s, cfg, kv, location, data, ttl, false, clock, faults).ok
    requires Serialize(data).WeatherJson?
    requires FaultAt(readFaults, 0).None? && FaultAt(readFaults, 1).None?
    ensures var o := SetSpec(s, cfg, kv, location, data, ttl, false, clock, faults);
      var stale := CompressedKey(location) in kv && Truthy(kv[CompressedKey(location)].value);
      && (!stale ==> GetSpec(o.breaker, cfg, o.kv, location, readEnter, readExit, readFaults).result == Ok(Serialize(data)))
      && (stale ==> TieredRead(o.kv, location, readFaults) == DecodeCompressed(kv[CompressedKey(location)].value))
  {
    var o := SetSpec(s, cfg, kv, location, data, ttl, false, clock, faults);
    SetSucceeds(s, cfg, kv, location, data, ttl, false, clock, faults);
    KeysDistinct(location, location);
    CodecRoundTrip(Utf8(Serialize(data)), Serialize(data));
    assert o.kv[WeatherKey(location)].value == Utf8(Serialize(data));
    if CompressedKey(location) in kv {
      assert o.kv[CompressedKey(location)] == kv[CompressedKey(location)];
    } else {
      assert CompressedKey(location) !in o.kv;
    }
  }

  // ---------------------------------------------------------------------------
  // Sliding-window limiter

  /** What `sliding_window_cache` gives its caller: the operation's own outcome, a
      rate-limit rejection (raised as a `CircuitBreakerError`), or the pipeline's error. */
  datatype LimitResult<+T> = Ran(outcome: OpOutcome<T>) | RateLimited | PipelineFailed(kind: ErrorKind)

  /** The timestamps kept by the prune: those outside `[0, now - windowSize]`. */
  function Pruned(members: set<int>, now: int, windowSize: int): set<int>
  {
    OutsideRange(members, 0, now - windowSize)
  }

  /** The count taken after the prune and before `now` is added is compared with a strict
      `>`. */
  predicate WindowAllows(members: set<int>, now: int, windowSize: int, maxOperations: int)
  {
    |Pruned(members, now, windowSize)| <= maxOperations
  }

  /** The sorted set after the pipeline, rejected or not (for a positive window). */
  function WindowAfter(members: set<int>, now: int, windowSize: int): set<int>
  {
    Pruned(members, now, windowSize) + {now}
  }

  datatype Window = Window(zsets: map<string, set<int>>, zttl: map<string, int>)

  /** The store's sorted sets after the pipeline: the key holds the pruned set plus `now`
      and expires after `windowSize`; a window that is not positive deletes the key. */
  function PipelineEffect(zsets: map<string, set<int>>, zttl: map<string, int>, key: string,
                          now: int, windowSize: int): Window
  {
    if windowSize > 0 then
      Window(zsets[key := WindowAfter(Members(zsets, key), now, windowSize)], zttl[key := windowSize])
    else
      Window(zsets - {key}, zttl - {key})
  }

  /** The limiter's decision and its record of the attempt: allowed exactly when the
      pruned count is at most `maxOperations`, and `now` is recorded either way. */
  lemma LimiterDecision(members: set<int>, now: int, windowSize: int, maxOperations: int)
    requires windowSize > 0
    ensures now in WindowAfter(members, now, windowSize)
    ensures |WindowAfter(members, now, windowSize)| <= |Pruned(members, now, windowSize)| + 1
    ensures WindowAllows(members, now, windowSize, maxOperations) ==>
      |WindowAfter(members, now, windowSize)| <= maxOperations + 1
    ensures forall m :: m in WindowAfter(members, now, windowSize) ==> m == now || m in members
  {
  }

  /** Equal timestamps collapse: a second attempt at the same instant leaves the window
      as the first one left it. */
  lemma EqualTimestampsCollapse(members: set<int>, now: int, windowSize: int)
    requires windowSize > 0
    ensures WindowAfter(WindowAfter(members, now, windowSize), now, windowSize) == WindowAfter(members, now, windowSize)
    ensures |Pruned(WindowAfter(members, now, windowSize), now, windowSize)| == |WindowAfter(members, now, windowSize)|
  {
    var w := WindowAfter(members, now, windowSize);
    assert Pruned(w, now, windowSize) == w;
  }

  /** The decisions of a sequence of attempts at the given times, each applied to the
      window the previous one left. */
  function Decisions(members: set<int>, times: seq<int>, windowSize: int, maxOperations: int): (r: seq<bool>)
    ensures |r| == |times|
    decreases |times|
  {
    if times == [] then []
    else [WindowAllows(members, times[0], windowSize, maxOperations)]
         + Decisions(WindowAfter(members, times[0], windowSize), times[1..], windowSize, maxOperations)
  }

  predicate StrictlyIncreasing(times: seq<int>)
  {
    forall i, j :: 0 <= i < j < |times| ==> times[i] < times[j]
  }

  lemma {:induction false} BurstDecisions(members: set<int>, times: seq<int>, windowSize: int, maxOperations: int)
    requires windowSize > 0 && times != [] && StrictlyIncreasing(times)
    requires times[|times| - 1] - times[0] < windowSize
    requires forall m :: m in members ==> times[|times| - 1] - windowSize < m < times[0]
    ensures forall i :: 0 <= i < |times| ==>
      (Decisions(members, times, windowSize, maxOperations)[i] <==> |members| + i <= maxOperations)
    decreases |times|
  {
    var t0 := times[0];
    var last := times[|times| - 1];
    assert Pruned(members, t0, windowSize) == members by {
      forall m | m in members ensures m in Pruned(members, t0, windowSize) {
        assert !(0 <= m <= t0 - windowSize);
      }
    }
    var next := WindowAfter(members, t0, windowSize);
    assert t0 !in members;
    assert next == members + {t0};
    assert |next| == |members| + 1;
    var d := Decisions(members, times, windowSize, maxOperations);
    if |times| > 1 {
      var rest := times[1..];
      assert rest[|rest| - 1] == last;
      forall m | m in next ensures last - windowSize < m < rest[0] {
        if m != t0 {
          assert m in members;
        }
      }
      BurstDecisions(next, rest, windowSize, maxOperations);
      var dr := Decisions(next, rest, windowSize, maxOperations);
      assert d == [WindowAllows(members, t0, windowSize, maxOperations)] + dr;
      forall i | 0 <= i < |times| ensures d[i] <==> |members| + i <= maxOperations {
        if i > 0 {
          assert d[i] == dr[i - 1];
        }
      }
    }
  }

  /** Attempts at strictly increasing times that all fit in one window, on a fresh key:
      exactly the first `maxOperations + 1` are allowed (the count excludes the attempt
      itself and the test is a strict `>`). */
  lemma BurstAdmitsOneMoreThanMax(times: seq<int>, windowSize: int, maxOperations: int)
    requires windowSize > 0 && times != [] && StrictlyIncreasing(times)
    requires times[|times| - 1] - times[0] < windowSize
    ensures forall i :: 0 <= i < |times| ==>
      (Decisions({}, times, windowSize, maxOperations)[i] <==> i <= maxOperations)
  {
    BurstDecisions({}, times, windowSize, maxOperations);
  }

  // ---------------------------------------------------------------------------
  // Warming

  /** An entry of the nearby-locations list; `name` is `None` when the key is missing. */
  datatype NearbyLocation = NearbyLocation(name: Option<string>, distance: int)

  /** Only the first three nearby locations are considered. */
  const WarmLimit: nat := 3

  function Min(a: nat, b: nat): nat
  {
    if a <= b then a else b
  }

  /** The locations scheduled for warming from `entries`, one coin per entry: an entry
      whose coin is true is scheduled by name; a missing name raises `KeyError`, which
      ends the loop (and is swallowed). What is scheduled is therefore a prefix of the
      names of the chosen entries: one task per chosen entry at most, in order. */
  function WarmTargets(entries: seq<NearbyLocation>, coins: seq<bool>): (r: seq<string>)
    requires |coins| >= |entries|
    ensures |r| <= |entries|
    ensures r <= NamesOf(Chosen(entries, coins))
    ensures forall n :: n in r ==> exists i :: 0 <= i < |entries| && coins[i] && entries[i].name == Some(n)
  {
    if entries == [] then []
    else if !coins[0] then
      var rest := WarmTargets(entries[1..], coins[1..]);
      WitnessShift(entries, coins, [], rest);
      assert Chosen(entries, coins) == Chosen(entries[1..], coins[1..]);
      rest
    else if entries[0].name.None? then []
    else
      var rest := WarmTargets(entries[1..], coins[1..]);
      WitnessShift(entries, coins, [entries[0].name.value], rest);
      var chosen := Chosen(entries, coins);
      assert chosen[0] == entries[0] && chosen[1..] == Chosen(entries[1..], coins[1..]);
      [entries[0].name.value] + rest
  }

  /** A name scheduled from the tail of `entries`, or the head's own name when its coin is
      true, is the name of some entry of `entries` whose coin is true. */
  lemma WitnessShift(entries: seq<NearbyLocation>, coins: seq<bool>, head: seq<string>, rest: seq<string>)
    requires |coins| >= |entries| > 0
    requires head == [] || (coins[0] && entries[0].name.Some? && head == [entries[0].name.value])
    requires forall n :: n in rest ==>
      exists i :: 0 <= i < |entries[1..]| && coins[1..][i] && entries[1..][i].name == Some(n)
    ensures forall n :: n in head + rest ==> exists i :: 0 <= i < |entries| && coins[i] && entries[i].name == Some(n)
  {
    forall n | n in head + rest ensures exists i :: 0 <= i < |entries| && coins[i] && entries[i].name == Some(n) {
      if n in rest {
        var j :| 0 <= j < |entries[1..]| && coins[1..][j] && entries[1..][j].name == Some(n);
        assert coins[j + 1] && entries[j + 1].name == Some(n);
      } else {
        assert n in head;
        assert coins[0] && entries[0].name == Some(n);
      }
    }
  }

  /** The entries whose coin is true, in order. */
  function Chosen(entries: seq<NearbyLocation>, coins: seq<bool>): (r: seq<NearbyLocation>)
    requires |coins| >= |entries|
    ensures |r| <= |entries|
    ensures forall x :: x in r ==> x in entries
  {
    if entries == [] then []
    else (if coins[0] then [entries[0]] else []) + Chosen(entries[1..], coins[1..])
  }

  /** The names of the entries that have one, in order. */
  function NamesOf(entries: seq<NearbyLocation>): (r: seq<string>)
    ensures |r| <= |entries|
  {
    if entries == [] then []
    else (if entries[0].name.Some? then [entries[0].name.value] else []) + NamesOf(entries[1..])
  }

  /** When every entry has a name, exactly the entries whose coin is true are scheduled,
      in order. */
  lemma {:induction false} WarmTargetsAllNamed(entries: seq<NearbyLocation>, coins: seq<bool>)
    requires |coins| >= |entries|
    requires forall i :: 0 <= i < |entries| ==> entries[i].name.Some?
    ensures WarmTargets(entries, coins) == NamesOf(Chosen(entries, coins))
  {
    if entries != [] {
      WarmTargetsAllNamed(entries[1..], coins[1..]);
      var head := if coins[0] then [entries[0]] else [];
      var tail := Chosen(entries[1..], coins[1..]);
      NamesOfAppend(head, tail);
    }
  }

  lemma {:induction false} NamesOfAppend(a: seq<NearbyLocation>, b: seq<NearbyLocation>)
    ensures NamesOf(a + b) == NamesOf(a) + NamesOf(b)
  {
    if a == [] {
      assert a + b == b;
    } else {
      var h := if a[0].name.Some? then [a[0].name.value] else [];
      assert (a + b)[0] == a[0];
      assert (a + b)[1..] == a[1..] + b;
      NamesOfAppend(a[1..], b);
      assert NamesOf(a + b) == h + (NamesOf(a[1..]) + NamesOf(b));
      assert NamesOf(a) == h + NamesOf(a[1..]);
    }
  }

  /** One step of the selection loop, read off the definition of `WarmTargets`: what has
      been scheduled so far, followed by the targets of the rest, stays the whole result. */
  lemma WarmTargetsStep(entries: seq<NearbyLocation>, draws: seq<bool>, i: nat, scheduled: seq<string>)
    requires |draws| >= |entries| && i < |entries|
    requires scheduled + WarmTargets(entries[i..], draws[i..]) == WarmTargets(entries, draws)
    ensures !draws[i] ==> scheduled + WarmTargets(entries[i + 1..], draws[i + 1..]) == WarmTargets(entries, draws)
    ensures draws[i] && entries[i].name.None? ==> scheduled == WarmTargets(entries, draws)
    ensures draws[i] && entries[i].name.Some? ==>
      (scheduled + [entries[i].name.value]) + WarmTargets(entries[i + 1..], draws[i + 1..]) == WarmTargets(entries, draws)
  {
    assert entries[i..][1..] == entries[i + 1..] && draws[i..][1..] == draws[i + 1..];
    if draws[i] && entries[i].name.Some? {
      var rest := WarmTargets(entries[i + 1..], draws[i + 1..]);
      assert WarmTargets(entries[i..], draws[i..]) == [entries[i].name.value] + rest;
      assert (scheduled + [entries[i].name.value]) + rest == scheduled + ([entries[i].name.value] + rest);
    } else if draws[i] {
      assert scheduled + [] == scheduled;
    }
  }

  /** The selection loop of `warm_cache_for_popular_locations`: `nearby` is the list the
      location service returned, or `None` when that call raised; the caller never sees an
      exception. */
  method WarmCacheForPopularLocations(nearby: Option<seq<NearbyLocation>>, coins: seq<bool>)
    returns (scheduled: seq<string>)
    requires nearby.Some? ==> |coins| >= Min(WarmLimit, |nearby.value|)
    ensures nearby.None? ==> scheduled == []
    ensures nearby.Some? ==>
      scheduled == WarmTargets(nearby.value[..Min(WarmLimit, |nearby.value|)], coins[..Min(WarmLimit, |nearby.value|)])
    ensures |scheduled| <= WarmLimit
  {
    scheduled := [];
    if nearby.None? {
      return;
    }
    var entries := nearby.value[..Min(WarmLimit, |nearby.value|)];
    var draws := coins[..|entries|];
    var i := 0;
    while i < |entries|
      invariant 0 <= i <= |entries|
      invariant scheduled + WarmTargets(entries[i..], draws[i..]) == WarmTargets(entries, draws)
    {
      WarmTargetsStep(entries, draws, i, scheduled);
      if draws[i] {
        if entries[i].name.None? {
          // `location['name']` raises KeyError; the loop ends and the error is logged.
          break;
        }
        scheduled := scheduled + [entries[i].name.value];
      }
      i := i + 1;
    }
    assert i == |entries| ==> WarmTargets(entries[i..], draws[i..]) == [];
  }

  /** The placeholder `_async_warm_location` writes. */
  function PlaceholderData(location: string): WeatherData
  {
    PlainDict(OtherJson("{\"location\": \"" + location + "\", \"temp\": 20.5}"), None)
  }

  /** A warmed entry never reads back as a hit: the placeholder is not a WeatherResponse,
      so the read that finds it ends in `CacheMiss`, and the breaker counts nothing. */
  lemma WarmedEntryReadsAsMiss(s: Snapshot, kv: map<string, Entry>, location: string, clock: WriteClock,
                               faults: seq<Option<ErrorKind>>, readEnter: int, readExit: int,
                               readFaults: seq<Option<ErrorKind>>)
    requires SetSpec(s, CacheBreakerConfig, kv, location, PlaceholderData(location), DefaultTtl, true, clock, faults).ok
    requires FaultAt(readFaults, 0).None?
    ensures var o := SetSpec(s, CacheBreakerConfig, kv, location, PlaceholderData(location), DefaultTtl, true, clock, faults);
      && GetSpec(o.breaker, CacheBreakerConfig, o.kv, location, readEnter, readExit, readFaults).result == Err(ReadFailed)
      && GetSpec(o.breaker, CacheBreakerConfig, o.kv, location, readEnter, readExit, readFaults).breaker == o.breaker
  {
    var o := SetSpec(s, CacheBreakerConfig, kv, location, PlaceholderData(location), DefaultTtl, true, clock, faults);
    SetSucceeds(s, CacheBreakerConfig, kv, location, PlaceholderData(location), DefaultTtl, true, clock, faults);
    KeysDistinct(location, location);
    assert o.kv[CompressedKey(location)].value == Compress(Utf8(Serialize(PlaceholderData(location))));
  }

  // ---------------------------------------------------------------------------
  // Map facts (helpers for the pipeline's proof; they model nothing of their own)

  lemma RemoveThenSet<K, V>(m: map<K, V>, k: K, v: V)
    ensures (m - {k})[k := v] == m[k := v]
  {
  }

  lemma SetThenRemove<K, V>(m: map<K, V>, k: K, v: V)
    ensures m[k := v] - {k} == m - {k}
  {
  }

  lemma RemoveTwice<K, V>(m: map<K, V>, k: K)
    ensures m - {k} - {k} == m - {k}
  {
  }

  // ---------------------------------------------------------------------------
  // The strategy object

  /** `CacheStrategy` with the module-level store client and `cache_circuit_breaker`
      passed in. */
  class CacheStrategy {
    const store: Store
    const breaker: CircuitBreaker

    constructor (store: Store, breaker: CircuitBreaker)
      ensures this.store == store && this.breaker == breaker
    {
      this.store := store;
      this.breaker := breaker;
    }

    /** The body of the `async with` block in `get_cached_weather`: the compressed key
        first, then the bare key, otherwise `CacheMiss`. */
    method ReadBlock(location: string, faults: seq<Option<ErrorKind>>) returns (read: Result<Doc, ErrorKind>)
      ensures read == TieredRead(store.kv, location, faults)
    {
      var compressed := store.Get(CompressedKey(location), FaultAt(faults, 0));
      if compressed.Err? {
        read := Err(compressed.error);
      } else if compressed.value.Some? && Truthy(compressed.value.value) {
        read := DecodeCompressed(compressed.value.value);
      } else {
        var uncompressed := store.Get(WeatherKey(location), FaultAt(faults, 1));
        if uncompressed.Err? {
          read := Err(uncompressed.error);
        } else if uncompressed.value.Some? && Truthy(uncompressed.value.value) {
          read := DecodePlain(uncompressed.value.value);
        } else {
          read := Err(CacheMissError);
        }
      }
    }

    /** `get_cached_weather`, admitted at `enterNow` and leaving the block at `exitNow`. */
    method GetCachedWeather(location: string, enterNow: int, exitNow: int, faults: seq<Option<ErrorKind>>)
      returns (r: Result<Doc, CacheMiss>)
      requires breaker.Valid()
      modifies breaker
      ensures breaker.Valid()
      ensures breaker.monitor ==
        Tracked(Entered(old(breaker.Snap()), breaker.recoveryTimeout, enterNow).state, breaker.state, old(breaker.monitor))
      ensures GetOutcome(r, breaker.Snap())
           == GetSpec(old(breaker.Snap()), breaker.Config(), store.kv, location, enterNow, exitNow, faults)
    {
      var refused := breaker.CheckState(enterNow);
      if refused.Some? {
        return Err(ServiceUnavailable);
      }
      var read := ReadBlock(location, faults);
      match read
      case Ok(d) =>
        breaker.ExitBlock(None, exitNow);
        r := Ok(d);
      case Err(k) =>
        breaker.ExitBlock(Some(k), exitNow);
        r := Err(MissOf(k));
    }

    /** `set_cached_weather`, reading the clock at the instants of `clock`. */
    method SetCachedWeather(location: string, data: WeatherData, ttl: int, compress: bool, clock: WriteClock,
                            faults: seq<Option<ErrorKind>>) returns (ok: bool)
      requires breaker.Valid()
      modifies store, breaker
      ensures breaker.Valid()
      ensures breaker.monitor ==
        Tracked(Entered(old(breaker.Snap()), breaker.recoveryTimeout, clock.enter).state, breaker.state, old(breaker.monitor))
      ensures store.zsets == old(store.zsets) && store.zttl == old(store.zttl)
      ensures SetOutcome(ok, breaker.Snap(), store.kv)
           == SetSpec(old(breaker.Snap()), breaker.Config(), old(store.kv), location, data, ttl, compress, clock, faults)
    {
      var refused := breaker.CheckState(clock.enter);
      if refused.Some? {
        return false;
      }
      var effectiveTtl := EffectiveTtl(data, ttl, clock.enter);
      var err := store.Setex(PayloadKey(location, compress), effectiveTtl, Payload(data, compress), FaultAt(faults, 0));
      if err.None? {
        err := store.Setex(IndexKey(location), effectiveTtl * 2, IndexRecord(location, clock.index), FaultAt(faults, 1));
      }
      breaker.ExitBlock(err, clock.exit);
      ok := err.None?;
    }

    /** `_async_warm_location`: write the placeholder with the default time-to-live and
        compression; whatever happens is swallowed. */
    method AsyncWarmLocation(location: string, clock: WriteClock, faults: seq<Option<ErrorKind>>)
      requires breaker.Valid()
      modifies store, breaker
      ensures breaker.Valid()
      ensures breaker.monitor ==
        Tracked(Entered(old(breaker.Snap()), breaker.recoveryTimeout, clock.enter).state, breaker.state, old(breaker.monitor))
      ensures store.zsets == old(store.zsets) && store.zttl == old(store.zttl)
      ensures var o := SetSpec(old(breaker.Snap()), breaker.Config(), old(store.kv), location,
                               PlaceholderData(location), DefaultTtl, true, clock, faults);
        breaker.Snap() == o.breaker && store.kv == o.kv
    {
      var _ := SetCachedWeather(location, PlaceholderData(location), DefaultTtl, true, clock, faults);
    }

    /** `sliding_window_cache`: the prune, count, record and expire pipeline applied as one
        unit (or not at all when it fails), then the operation only when the count taken
        before recording does not exceed `maxOperations`. */
    method SlidingWindowCache<T>(key: string, operation: OpOutcome<T>, windowSize: int, maxOperations: int,
                                 now: int, fault: Option<ErrorKind>) returns (r: LimitResult<T>)
      modifies store
      ensures store.kv == old(store.kv)
      ensures fault.Some? ==>
        r == PipelineFailed(fault.value) && store.zsets == old(store.zsets) && store.zttl == old(store.zttl)
      ensures fault.None? ==>
        && Window(store.zsets, store.zttl) == PipelineEffect(old(store.zsets), old(store.zttl), key, now, windowSize)
        && r == if WindowAllows(Members(old(store.zsets), key), now, windowSize, maxOperations)
                then Ran(operation) else RateLimited
    {
      if fault.Some? {
        return PipelineFailed(fault.value);
      }
      ghost var z0, t0 := store.zsets, store.zttl;
      ghost var pruned := Pruned(Members(z0, key), now, windowSize);
      store.ZRemRangeByScore(key, 0, now - windowSize);
      assert Members(store.zsets, key) == pruned;
      var count := store.ZCard(key);
      store.ZAdd(key, now);
      assert store.zsets == z0[key := WindowAfter(Members(z0, key), now, windowSize)] by {
        RemoveThenSet(z0, key, pruned + {now});
      }
      assert store.zttl == t0 || store.zttl == t0 - {key};
      store.Expire(key, windowSize);
      if windowSize > 0 {
        RemoveThenSet(t0, key, windowSize);
      } else {
        SetThenRemove(z0, key, WindowAfter(Members(z0, key), now, windowSize));
        RemoveTwice(t0, key);
      }
      if count > maxOperations {
        r := RateLimited;
      } else {
        r := Ran(operation);
      }
    }
  }
}

=== FILE: circuit_breaker.dfy ===
/** The circuit breaker: three states, the statistics record, admission, failure and
    success recording, the exit classification of `async with`, the decorator and the
    synchronous context.  Each method runs atomically (the `asyncio.Lock`); the clock
    is the `now` parameter. */
module CircuitBreakers {
  import opened Errors

  datatype CircuitState = Closed | Open | HalfOpen

  datatype CircuitBreakerStats = CircuitBreakerStats(
    failures: nat,
    successes: nat,
    lastFailureTime: Option<int>,
    stateChanges: nat)

  /** `CircuitBreakerStats()`. */
  const FreshStats: CircuitBreakerStats := CircuitBreakerStats(0, 0, None, 0)

  /** A `CircuitBreakerError` raised by the breaker itself, by the situation that raises
      it; `Blocked` carries the `original_exception`. */
  datatype BreakerError =
    | CircuitOpen(failures: nat)   // "is OPEN (failures: n)"
    | CircuitHalfOpen              // "is HALF-OPEN (testing recovery)"
    | Blocked(original: ErrorKind) // "blocked call to f" / "blocked operation"

  /** The constructor arguments the transitions read. */
  datatype BreakerConfig = BreakerConfig(
    failureThreshold: int,
    recoveryTimeout: int,
    expectedExceptions: set<ErrorKind>)

  /** The mutable part of a breaker: `state` and `stats`. */
  datatype Snapshot = Snapshot(state: CircuitState, stats: CircuitBreakerStats)

  const InitialSnapshot: Snapshot := Snapshot(Closed, FreshStats)

  // ---------------------------------------------------------------------------
  // Transitions as functions of the state they start from

  /** `_open`. */
  function Opened(s: Snapshot): (r: Snapshot)
    ensures r.state == Open && r.stats.stateChanges == s.stats.stateChanges + 1
    ensures r.stats.failures == s.stats.failures && r.stats.successes == s.stats.successes
    ensures r.stats.lastFailureTime == s.stats.lastFailureTime
  {
    Snapshot(Open, s.stats.(stateChanges := s.stats.stateChanges + 1))
  }

  /** `_half_open`. */
  function HalfOpened(s: Snapshot): (r: Snapshot)
    ensures r.state == HalfOpen && r.stats.stateChanges == s.stats.stateChanges + 1
    ensures r.stats.failures == s.stats.failures && r.stats.successes == s.stats.successes
    ensures r.stats.lastFailureTime == s.stats.lastFailureTime
  {
    Snapshot(HalfOpen, s.stats.(stateChanges := s.stats.stateChanges + 1))
  }

  /** `_close`: a fresh statistics record whose `state_changes` is then incremented. */
  function Reclosed(s: Snapshot): (r: Snapshot)
    ensures r.state == Closed && r.stats.stateChanges == 1
    ensures r.stats.failures == 0 && r.stats.successes == 0 && r.stats.lastFailureTime.None?
  {
    Snapshot(Closed, FreshStats.(stateChanges := FreshStats.stateChanges + 1))
  }

  /** `self.stats.last_failure_time or 0`. */
  function LastFailureOrZero(stats: CircuitBreakerStats): int
  {
    match stats.lastFailureTime
    case Some(t) => t
    case None => 0
  }

  /** The recovery test of `_check_state`: strictly more than `recovery_timeout` since the
      last failure. */
  predicate RecoveryElapsed(s: Snapshot, recoveryTimeout: int, now: int)
  {
    now - LastFailureOrZero(s.stats) > recoveryTimeout
  }

  datatype Admission = Admitted(next: Snapshot) | Refused(error: BreakerError)

  /** `_check_state` (and so `__aenter__`). */
  function Admit(s: Snapshot, recoveryTimeout: int, now: int): (r: Admission)
    ensures r.Admitted? <==> s.state == Closed || (s.state == Open && RecoveryElapsed(s, recoveryTimeout, now))
    ensures r.Admitted? ==> r.next.state != Open
    ensures r.Refused? ==> (r.error.CircuitOpen? <==> s.state == Open)
  {
    match s.state
    case Closed => Admitted(s)
    case Open =>
      if RecoveryElapsed(s, recoveryTimeout, now) then Admitted(HalfOpened(s))
      else Refused(CircuitOpen(s.stats.failures))
    case HalfOpen => Refused(CircuitHalfOpen)
  }

  /** The breaker after an admission attempt, whether admitted or refused. */
  function Entered(s: Snapshot, recoveryTimeout: int, now: int): (r: Snapshot)
    ensures r.state == Closed <==> s.state == Closed
    ensures r.state == HalfOpen ==> s.state != Closed
    ensures r.stats.failures == s.stats.failures && r.stats.lastFailureTime == s.stats.lastFailureTime
  {
    match Admit(s, recoveryTimeout, now)
    case Admitted(next) => next
    case Refused(_) => s
  }

  /** `_record_failure`. */
  function AfterFailure(s: Snapshot, failureThreshold: int, now: int): (r: Snapshot)
    ensures r.stats.failures == s.stats.failures + 1 && r.stats.lastFailureTime == Some(now)
    ensures r.stats.successes == s.stats.successes
  {
    var counted := Snapshot(s.state, s.stats.(failures := s.stats.failures + 1, lastFailureTime := Some(now)));
    if s.state == Closed && counted.stats.failures >= failureThreshold then Opened(counted)
    else if s.state == HalfOpen then Opened(counted)
    else counted
  }

  /** `_record_success`. */
  function AfterSuccess(s: Snapshot): (r: Snapshot)
    ensures r.state == Closed <==> s.state != Open
    ensures r.stats.successes >= 1
  {
    if s.state == HalfOpen then
      var t := Reclosed(s);
      Snapshot(Closed, t.stats.(successes := t.stats.successes + 1))
    else
      assert s.state == Closed || s.state == Open;
      Snapshot(s.state, s.stats.(successes := s.stats.successes + 1))
  }

  /** `__aexit__`: an expected exception is a failure, no exception is a success, any
      other exception leaves the breaker alone. */
  function AfterExit(s: Snapshot, cfg: BreakerConfig, exc: Option<ErrorKind>, now: int): (r: Snapshot)
    ensures exc.None? ==> r.stats.successes >= 1 && r.stats.lastFailureTime == (if s.state == HalfOpen then None else s.stats.lastFailureTime)
    ensures exc.Some? ==> r.stats.successes == s.stats.successes
    ensures exc.Some? ==> (r.stats.lastFailureTime == Some(now) <==> exc.value in cfg.expectedExceptions || s.stats.lastFailureTime == Some(now))
    ensures exc.Some? && exc.value !in cfg.expectedExceptions ==> r == s
  {
    match exc
    case None => AfterSuccess(s)
    case Some(k) => if k in cfg.expectedExceptions then AfterFailure(s, cfg.failureThreshold, now) else s
  }

  /** The body of the `_monitor_circuit` loop, run after its sleep: it tests the timer
      only; the state is tested at the loop head, before the sleep. */
  function MonitorBody(s: Snapshot, recoveryTimeout: int, now: int): (r: Snapshot)
    ensures r.state == (if RecoveryElapsed(s, recoveryTimeout, now) then HalfOpen else s.state)
    ensures r.stats.failures == s.stats.failures && r.stats.lastFailureTime == s.stats.lastFailureTime
  {
    if RecoveryElapsed(s, recoveryTimeout, now) then HalfOpened(s) else s
  }

  // ---------------------------------------------------------------------------
  // The monitor task

  /** `_monitor_task`: none or done (`Idle`); created by `_open` and not yet at its first
      loop test (`Starting`); inside its loop, asleep (`Sleeping`); or cancelled by `_close`
      but not yet done (`Cancelling`): `cancel()` only takes effect at the task's next
      step, and until then `done()` is false. */
  datatype MonitorPhase = Idle | Starting | Sleeping | Cancelling

  /** A task that is running its loop (or about to). */
  predicate Live(m: MonitorPhase)
  {
    m == Starting || m == Sleeping
  }

  /** A breaker together with its monitor task. */
  datatype Machine = Machine(snap: Snapshot, monitor: MonitorPhase)

  /** The monitor task is never live while CLOSED: `_close` cancels it. */
  predicate MonitorCancelled(state: CircuitState, m: MonitorPhase)
  {
    state == Closed ==> !Live(m)
  }

  /** Moreover there is a monitor task while OPEN, live or with its cancellation pending:
      `_open` starts one unless the current one is not done, and the loop only ends once
      the state is not OPEN.  A `context` exit (see `AfterContext`) and a cancelled task
      finishing while OPEN (see `CloseThenOpenLeavesOpenUnmonitored`) break it. */
  predicate MonitorAgrees(state: CircuitState, m: MonitorPhase)
  {
    MonitorCancelled(state, m) && (state == Open ==> m != Idle)
  }

  /** The monitor task once `_open` has run: a new one unless the current one is not done
      (a cancelled task that has not yet finished is kept, and no task is started). */
  function Started(m: MonitorPhase): (r: MonitorPhase)
    ensures r != Idle
    ensures m != Idle ==> r == m
  {
    if m == Idle then Starting else m
  }

  /** The monitor task once `_close` has run: a live task is asked to cancel. */
  function CancelRequested(m: MonitorPhase): (r: MonitorPhase)
    ensures !Live(r)
    ensures m == Idle <==> r == Idle
  {
    if Live(m) then Cancelling else m
  }

  /** The monitor task after a step from state `from` to state `to`: cancelled by
      `_close`, started by `_open`, untouched by `_half_open` and when the state stays. */
  function Tracked(from: CircuitState, to: CircuitState, m: MonitorPhase): (r: MonitorPhase)
    ensures from != to ==> MonitorAgrees(to, r)
    ensures MonitorCancelled(from, m) ==> MonitorCancelled(to, r)
    ensures MonitorAgrees(from, m) ==> MonitorAgrees(to, r)
  {
    if from == to then m
    else if to == Closed then CancelRequested(m)
    else if to == Open then Started(m)
    else m
  }

  /** The monitor's first loop test: it enters the loop only while OPEN. */
  function AfterMonitorStart(b: Machine): (r: Machine)
    ensures r.snap == b.snap
    ensures b.monitor != Starting ==> r == b
    ensures b.monitor == Starting ==> (r.monitor == Sleeping <==> b.snap.state == Open)
    ensures b.monitor == Starting ==> (r.monitor == Idle <==> b.snap.state != Open)
  {
    if b.monitor != Starting then b
    else Machine(b.snap, if b.snap.state == Open then Sleeping else Idle)
  }

  /** A cancelled monitor task takes its next step: the cancellation is delivered and the
      task is done. */
  function AfterMonitorFinish(b: Machine): (r: Machine)
    ensures r.snap == b.snap
    ensures b.monitor == Cancelling ==> r.monitor == Idle
    ensures b.monitor != Cancelling ==> r == b
  {
    if b.monitor == Cancelling then Machine(b.snap, Idle) else b
  }

  /** The monitor wakes from its sleep: the loop body, then the loop test. */
  function AfterMonitorWake(b: Machine, recoveryTimeout: int, now: int): (r: Machine)
    ensures b.monitor != Sleeping ==> r == b
    ensures b.monitor == Sleeping ==> r.snap == MonitorBody(b.snap, recoveryTimeout, now)
    ensures b.monitor == Sleeping ==> (r.monitor == Sleeping <==> r.snap.state == Open)
  {
    if b.monitor != Sleeping then b
    else
      var s := MonitorBody(b.snap, recoveryTimeout, now);
      Machine(s, if s.state == Open then Sleeping else Idle)
  }

  /** The synchronous `context`, called outside a running event loop: the exit is recorded
      by `asyncio.run`, and on return `asyncio.run` cancels every task still pending in the
      loop it made, so a monitor task that `_open` started there is finished before
      `context` returns.  A task that existed beforehand belongs to another loop and is
      kept, or its cancellation requested by `_close`. */
  function AfterContext(b: Machine, cfg: BreakerConfig, exc: Option<ErrorKind>, now: int): (r: Machine)
    ensures r.snap == AfterExit(b.snap, cfg, exc, now)
    ensures MonitorCancelled(b.snap.state, b.monitor) ==> MonitorCancelled(r.snap.state, r.monitor)
    ensures r.monitor == b.monitor || r.monitor == CancelRequested(b.monitor)
    ensures b.monitor == Idle ==> r.monitor == Idle
  {
    var s := AfterExit(b.snap, cfg, exc, now);
    Machine(s, if b.monitor == Idle then Idle else Tracked(b.snap.state, s.state, b.monitor))
  }

  // ---------------------------------------------------------------------------
  // Invariants and properties of the transitions

  /** What every reachable breaker satisfies: a failure count goes with a failure time, a
      breaker that is not CLOSED has failed and changed state, and a CLOSED breaker that
      has failed has not reached its threshold. */
  predicate Consistent(s: Snapshot, failureThreshold: int)
  {
    && (s.stats.failures == 0 <==> s.stats.lastFailureTime.None?)
    && (s.state != Closed ==> s.stats.failures > 0 && s.stats.stateChanges >= 1)
    && (s.state == Closed && s.stats.failures > 0 ==> s.stats.failures < failureThreshold)
  }

  /** The only state edges: CLOSED->OPEN, OPEN->HALF_OPEN, HALF_OPEN->OPEN, HALF_OPEN->CLOSED. */
  predicate LegalEdge(from: CircuitState, to: CircuitState)
  {
    from == to
    || (from == Closed && to == Open)
    || (from == Open && to == HalfOpen)
    || (from == HalfOpen && to == Open)
    || (from == HalfOpen && to == Closed)
  }

  /** How `state_changes` is meant to follow a step: +1 on entering OPEN or HALF_OPEN,
      exactly 1 on entering CLOSED, unchanged when the state is unchanged. */
  predicate CountsChange(s: Snapshot, t: Snapshot)
  {
    if s.state == t.state then t.stats.stateChanges == s.stats.stateChanges
    else if t.state == Closed then t.stats.stateChanges == 1
    else t.stats.stateChanges == s.stats.stateChanges + 1
  }

  /** A new breaker is CLOSED with zeroed statistics, no failure time and no monitor task. */
  lemma InitialIsClosed(failureThreshold: int)
    ensures InitialSnapshot.state == Closed
    ensures InitialSnapshot.stats.failures == 0 && InitialSnapshot.stats.successes == 0
    ensures InitialSnapshot.stats.stateChanges == 0 && InitialSnapshot.stats.lastFailureTime == None
    ensures Consistent(InitialSnapshot, failureThreshold)
    ensures Reachable(Machine(InitialSnapshot, Idle), failureThreshold)
    ensures MonitorAgrees(InitialSnapshot.state, Idle)
  {
  }

  /** Admission in CLOSED succeeds and changes nothing. */
  lemma AdmitClosed(s: Snapshot, recoveryTimeout: int, now: int)
    requires s.state == Closed
    ensures Admit(s, recoveryTimeout, now) == Admitted(s)
  {
  }

  /** Admission in OPEN: after strictly more than the timeout since the last failure it
      moves to HALF_OPEN with one more state change and the counters otherwise intact;
      before that it is refused and nothing changes. */
  lemma AdmitOpen(s: Snapshot, recoveryTimeout: int, now: int)
    requires s.state == Open
    ensures RecoveryElapsed(s, recoveryTimeout, now) ==>
      Admit(s, recoveryTimeout, now) == Admitted(Snapshot(HalfOpen, s.stats.(stateChanges := s.stats.stateChanges + 1)))
    ensures !RecoveryElapsed(s, recoveryTimeout, now) ==>
      Admit(s, recoveryTimeout, now) == Refused(CircuitOpen(s.stats.failures))
  {
  }

  /** Admission in HALF_OPEN is always refused: only the caller that made the
      OPEN->HALF_OPEN move gets through. */
  lemma AdmitHalfOpen(s: Snapshot, recoveryTimeout: int, now: int)
    requires s.state == HalfOpen
    ensures Admit(s, recoveryTimeout, now) == Refused(CircuitHalfOpen)
  {
  }

  /** A single probe: once an admission turned OPEN into HALF_OPEN, every further
      admission is refused until an exit is recorded. */
  lemma SingleProbe(s: Snapshot, recoveryTimeout: int, now: int, later: int)
    requires s.state == Open
    requires Admit(s, recoveryTimeout, now).Admitted?
    ensures Admit(Admit(s, recoveryTimeout, now).next, recoveryTimeout, later).Refused?
  {
  }

  /** `_record_failure`: always one more failure stamped `now`; CLOSED trips at the
      threshold, HALF_OPEN re-opens, OPEN stays OPEN with its recovery timer restarted. */
  lemma FailureTransitions(s: Snapshot, failureThreshold: int, recoveryTimeout: int, now: int)
    ensures var r := AfterFailure(s, failureThreshold, now);
      && (s.state == Closed ==> (r.state == Open <==> s.stats.failures + 1 >= failureThreshold))
      && (s.state == HalfOpen ==> r.state == Open)
      && (s.state == Open ==> r.state == Open && r.stats.stateChanges == s.stats.stateChanges)
      && (r.state == Open ==> !RecoveryElapsed(r, recoveryTimeout, now + recoveryTimeout))
  {
  }

  /** `_record_success`: HALF_OPEN closes with fresh statistics (then one success and one
      state change); any other state only counts the success, and failures never drop. */
  lemma SuccessTransitions(s: Snapshot)
    ensures s.state == HalfOpen ==>
      AfterSuccess(s) == Snapshot(Closed, CircuitBreakerStats(0, 1, None, 1))
    ensures s.state != HalfOpen ==>
      AfterSuccess(s) == Snapshot(s.state, s.stats.(successes := s.stats.successes + 1))
  {
  }

  /** `__aexit__`: an expected exception records a failure, no exception records a
      success, and an exception outside `expected_exceptions` records neither. */
  lemma ExitClassification(s: Snapshot, cfg: BreakerConfig, exc: Option<ErrorKind>, now: int)
    ensures exc.Some? && exc.value in cfg.expectedExceptions ==>
      AfterExit(s, cfg, exc, now) == AfterFailure(s, cfg.failureThreshold, now)
    ensures exc.None? ==> AfterExit(s, cfg, exc, now) == AfterSuccess(s)
    ensures exc.Some? && exc.value !in cfg.expectedExceptions ==> AfterExit(s, cfg, exc, now) == s
  {
  }

  /** The three transition helpers: `_open` and `_half_open` add exactly one state change,
      `_close` leaves exactly one. */
  lemma TransitionCounters(s: Snapshot)
    ensures Opened(s).state == Open && Opened(s).stats.stateChanges == s.stats.stateChanges + 1
    ensures HalfOpened(s).state == HalfOpen && HalfOpened(s).stats.stateChanges == s.stats.stateChanges + 1
    ensures Reclosed(s) == Snapshot(Closed, CircuitBreakerStats(0, 0, None, 1))
  {
  }

  /** The scenario with threshold 3 and timeout 60: failures at t = 0, 1, 2 open the
      breaker; admissions at t = 10, 61 and 62 are refused (the timer runs from the last
      failure), t = 63 is admitted as the probe, and its success closes the breaker. */
  lemma ThresholdThreeScenario()
    ensures var s3 := AfterFailure(AfterFailure(AfterFailure(InitialSnapshot, 3, 0), 3, 1), 3, 2);
      && s3.state == Open
      && Admit(s3, 60, 10).Refused?
      && Admit(s3, 60, 61).Refused?
      && Admit(s3, 60, 62).Refused?
      && Admit(s3, 60, 63).Admitted?
      && Admit(s3, 60, 63).next.state == HalfOpen
      && AfterSuccess(Admit(s3, 60, 63).next) == Snapshot(Closed, CircuitBreakerStats(0, 1, None, 1))
  {
  }

  // ---------------------------------------------------------------------------
  // Traces

  /** What can happen to a breaker: an admission, the exit of an admitted block, the exit
      of a synchronous `context` block, the monitor's first loop test, the monitor waking
      from its sleep, or a cancelled monitor task finishing. */
  datatype Event =
    | Enter(now: int)
    | Exit(exc: Option<ErrorKind>, now: int)
    | ContextExit(exc: Option<ErrorKind>, now: int)
    | MonitorStart
    | MonitorWake(now: int)
    | MonitorFinish

  function Step(b: Machine, cfg: BreakerConfig, e: Event): Machine
  {
    match e
    case Enter(now) =>
      var s := Entered(b.snap, cfg.recoveryTimeout, now);
      Machine(s, Tracked(b.snap.state, s.state, b.monitor))
    case Exit(exc, now) =>
      var s := AfterExit(b.snap, cfg, exc, now);
      Machine(s, Tracked(b.snap.state, s.state, b.monitor))
    case ContextExit(exc, now) => AfterContext(b, cfg, exc, now)
    case MonitorStart => AfterMonitorStart(b)
    case MonitorWake(now) => AfterMonitorWake(b, cfg.recoveryTimeout, now)
    case MonitorFinish => AfterMonitorFinish(b)
  }

  /** What every reachable breaker with its monitor satisfies. */
  predicate Reachable(b: Machine, failureThreshold: int)
  {
    Consistent(b.snap, failureThreshold) && MonitorCancelled(b.snap.state, b.monitor)
  }

  /** Every step keeps the invariant and moves along a legal edge, and every step other
      than the exit of a `context` block and a cancelled monitor finishing keeps a monitor
      task (live or with its cancellation pending) while OPEN; a cancelled monitor
      finishing keeps it too unless the breaker is OPEN.  Every step
      other than a monitor wake counts its state change as intended; a monitor wake either
      does too, or finds the breaker already HALF_OPEN and calls `_half_open` once more. */
  lemma StepProperties(b: Machine, cfg: BreakerConfig, e: Event)
    requires Reachable(b, cfg.failureThreshold)
    ensures Reachable(Step(b, cfg, e), cfg.failureThreshold)
    ensures (!e.ContextExit? && !(e.MonitorFinish? && b.snap.state == Open)
             && MonitorAgrees(b.snap.state, b.monitor)) ==>
      MonitorAgrees(Step(b, cfg, e).snap.state, Step(b, cfg, e).monitor)
    ensures LegalEdge(b.snap.state, Step(b, cfg, e).snap.state)
    ensures !e.MonitorWake? ==> CountsChange(b.snap, Step(b, cfg, e).snap)
    ensures e.MonitorWake? ==>
      CountsChange(b.snap, Step(b, cfg, e).snap)
      || (b.snap.state == HalfOpen && Step(b, cfg, e).snap == HalfOpened(b.snap))
  {
  }

  function Run(b: Machine, cfg: BreakerConfig, events: seq<Event>): Machine
    decreases |events|
  {
    if events == [] then b else Run(Step(b, cfg, events[0]), cfg, events[1..])
  }

  /** The states a run passes through, starting with `b`'s. */
  function States(b: Machine, cfg: BreakerConfig, events: seq<Event>): (r: seq<CircuitState>)
    ensures |r| == |events| + 1 && r[0] == b.snap.state
    decreases |events|
  {
    if events == [] then [b.snap.state] else [b.snap.state] + States(Step(b, cfg, events[0]), cfg, events[1..])
  }

  /** No exit of a synchronous `context` block and no cancelled monitor finishing. */
  predicate KeepsMonitor(events: seq<Event>)
  {
    forall i :: 0 <= i < |events| ==> !events[i].ContextExit? && !events[i].MonitorFinish?
  }

  /** From a reachable breaker (a new one in particular), every run stays reachable and
      every consecutive pair of its states is a legal edge; a run without `context` exits
      and without a cancelled monitor finishing keeps a monitor task while OPEN. */
  lemma {:induction false} RunProperties(b: Machine, cfg: BreakerConfig, events: seq<Event>)
    requires Reachable(b, cfg.failureThreshold)
    ensures Reachable(Run(b, cfg, events), cfg.failureThreshold)
    ensures forall i :: 0 <= i < |events| ==>
      LegalEdge(States(b, cfg, events)[i], States(b, cfg, events)[i + 1])
    ensures KeepsMonitor(events) && MonitorAgrees(b.snap.state, b.monitor) ==>
      MonitorAgrees(Run(b, cfg, events).snap.state, Run(b, cfg, events).monitor)
    decreases |events|
  {
    if events != [] {
      var b1 := Step(b, cfg, events[0]);
      StepProperties(b, cfg, events[0]);
      RunProperties(b1, cfg, events[1..]);
      if KeepsMonitor(events) {
        assert KeepsMonitor(events[1..]) by {
          forall i | 0 <= i < |events[1..]|
            ensures !events[1..][i].ContextExit? && !events[1..][i].MonitorFinish?
          {
            assert events[1..][i] == events[i + 1];
          }
        }
        assert !events[0].ContextExit? && !events[0].MonitorFinish?;
      }
      var st := States(b, cfg, events);
      var rest := States(b1, cfg, events[1..]);
      assert st == [b.snap.state] + rest;
      forall i | 0 <= i < |events| ensures LegalEdge(st[i], st[i + 1]) {
        if i == 0 {
          assert st[0] == b.snap.state;
          assert st[1] == rest[0] == b1.snap.state;
          assert LegalEdge(b.snap.state, b1.snap.state);
        } else {
          assert st[i] == rest[i - 1] && st[i + 1] == rest[i];
          assert LegalEdge(rest[i - 1], rest[i - 1 + 1]);
        }
      }
    }
  }

  // ---------------------------------------------------------------------------
  // The breaker object

  /** The outcome a caller of the decorator or of `context` observes. */
  datatype CallResult<+T> =
    | Returned(value: T)
    | RaisedBreakerError(error: BreakerError)
    | RaisedOther(kind: ErrorKind)

  /** The exception `__aexit__` sees under the decorator: an expected exception has
      already been replaced by a `CircuitBreakerError` inside the `async with` block. */
  function DecoratorExitException<T>(cfg: BreakerConfig, outcome: OpOutcome<T>): Option<ErrorKind>
  {
    match outcome
    case Returns(_) => None
    case Raises(k) => Some(if k in cfg.expectedExceptions then ErrorKind.CircuitBreakerError else k)
  }

  /** What the caller of the decorated function observes once admitted. */
  function DecoratorResult<T>(cfg: BreakerConfig, outcome: OpOutcome<T>): CallResult<T>
  {
    match outcome
    case Returns(v) => Returned(v)
    case Raises(k) => if k in cfg.expectedExceptions then RaisedBreakerError(Blocked(k)) else RaisedOther(k)
  }

  class CircuitBreaker {
    const failureThreshold: int
    const recoveryTimeout: int
    const expectedExceptions: set<ErrorKind>
    const name: string
    const monitorInterval: int

    var state: CircuitState
    var stats: CircuitBreakerStats
    /** `_monitor_task`. */
    var monitor: MonitorPhase

    function Config(): BreakerConfig
    {
      BreakerConfig(failureThreshold, recoveryTimeout, expectedExceptions)
    }

    function Snap(): Snapshot
      reads this
    {
      Snapshot(state, stats)
    }

    function Mach(): Machine
      reads this
    {
      Machine(Snap(), monitor)
    }

    ghost predicate Valid()
      reads this
    {
      Reachable(Mach(), failureThreshold)
    }

    /** `__init__`: CLOSED with fresh statistics. */
    constructor (failureThreshold: int, recoveryTimeout: int, expectedExceptions: set<ErrorKind>,
                 name: string, monitorInterval: int)
      ensures this.failureThreshold == failureThreshold && this.recoveryTimeout == recoveryTimeout
      ensures this.expectedExceptions == expectedExceptions
      ensures this.name == name && this.monitorInterval == monitorInterval
      ensures state == Closed && stats == FreshStats && monitor == Idle
      ensures Valid()
    {
      this.failureThreshold := failureThreshold;
      this.recoveryTimeout := recoveryTimeout;
      this.expectedExceptions := expectedExceptions;
      this.name := name;
      this.monitorInterval := monitorInterval;
      state := Closed;
      stats := CircuitBreakerStats(0, 0, None, 0);
      monitor := Idle;
    }

    /** `_open`: a monitor task is started unless one is live. */
    method OpenCircuit()
      modifies this
      ensures Snap() == Opened(old(Snap()))
      ensures monitor == Started(old(monitor))
    {
      state := Open;
      stats := stats.(stateChanges := stats.stateChanges + 1);
      if monitor == Idle {
        monitor := Starting;
      }
    }

    /** `_half_open`. */
    method HalfOpenCircuit()
      modifies this
      ensures Snap() == HalfOpened(old(Snap()))
      ensures monitor == old(monitor)
    {
      state := HalfOpen;
      stats := stats.(stateChanges := stats.stateChanges + 1);
    }

    /** `_close`: the statistics object is replaced, then its `state_changes` incremented;
        cancellation of the monitor task is requested (the task keeps its place in
        `_monitor_task` until it is done). */
    method CloseCircuit()
      modifies this
      ensures Snap() == Reclosed(old(Snap()))
      ensures monitor == CancelRequested(old(monitor))
    {
      state := Closed;
      stats := CircuitBreakerStats(0, 0, None, 0);
      stats := stats.(stateChanges := stats.stateChanges + 1);
      if monitor == Starting || monitor == Sleeping {
        monitor := Cancelling;
      }
    }

    /** `_check_state`: `None` when the caller may proceed, otherwise the error raised. */
    method CheckState(now: int) returns (err: Option<BreakerError>)
      requires Valid()
      modifies this
      ensures Valid()
      ensures monitor == Tracked(old(state), state, old(monitor))
      ensures match Admit(old(Snap()), recoveryTimeout, now)
              case Admitted(next) => err == None && Snap() == next
              case Refused(e) => err == Some(e) && Snap() == old(Snap())
    {
      err := None;
      if state == Open {
        if now - LastFailureOrZero(stats) > recoveryTimeout {
          HalfOpenCircuit();
        } else {
          err := Some(CircuitOpen(stats.failures));
        }
      } else if state == HalfOpen {
        err := Some(CircuitHalfOpen);
      }
    }

    /** `_record_failure`. */
    method RecordFailure(now: int)
      requires Valid()
      modifies this
      ensures Valid()
      ensures monitor == Tracked(old(state), state, old(monitor))
      ensures Snap() == AfterFailure(old(Snap()), failureThreshold, now)
    {
      stats := stats.(failures := stats.failures + 1);
      stats := stats.(lastFailureTime := Some(now));
      if state == Closed && stats.failures >= failureThreshold {
        OpenCircuit();
      } else if state == HalfOpen {
        OpenCircuit();
      }
    }

    /** `_record_success`. */
    method RecordSuccess()
      requires Valid()
      modifies this
      ensures Valid()
      ensures monitor == Tracked(old(state), state, old(monitor))
      ensures Snap() == AfterSuccess(old(Snap()))
    {
      if state == HalfOpen {
        CloseCircuit();
      }
      stats := stats.(successes := stats.successes + 1);
    }

    /** `__aexit__`, given the exception that left the block (if any). */
    method ExitBlock(exc: Option<ErrorKind>, now: int)
      requires Valid()
      modifies this
      ensures Valid()
      ensures monitor == Tracked(old(state), state, old(monitor))
      ensures Snap() == AfterExit(old(Snap()), Config(), exc, now)
    {
      if exc.Some? && exc.value in expectedExceptions {
        RecordFailure(now);
      } else if exc.None? {
        RecordSuccess();
      }
    }

    /** The monitor task's first loop test. */
    method MonitorStart()
      requires Valid()
      modifies this
      ensures Valid()
      ensures Mach() == AfterMonitorStart(old(Mach()))
    {
      if monitor == Starting {
        monitor := if state == Open then Sleeping else Idle;
      }
    }

    /** The monitor task wakes from its sleep: the loop body under the lock, which tests
        the timer but not the state, then the loop test. */
    method MonitorWake(now: int)
      requires Valid()
      modifies this
      ensures Valid()
      ensures Mach() == AfterMonitorWake(old(Mach()), recoveryTimeout, now)
    {
      if monitor == Sleeping {
        if now - LastFailureOrZero(stats) > recoveryTimeout {
          HalfOpenCircuit();
        }
        monitor := if state == Open then Sleeping else Idle;
      }
    }

    /** A cancelled monitor task takes its next step and is done. */
    method MonitorFinish()
      requires Valid()
      modifies this
      ensures Valid()
      ensures Mach() == AfterMonitorFinish(old(Mach()))
    {
      if monitor == Cancelling {
        monitor := Idle;
      }
    }

    /** The decorator `__call__`, for one call of the wrapped function: admission at
        `enterNow`, the function's `outcome`, the exit at `exitNow`.  An expected exception
        is re-raised as a `CircuitBreakerError` inside the block, so that is what the exit
        classification sees. */
    method Call<T>(enterNow: int, outcome: OpOutcome<T>, exitNow: int) returns (r: CallResult<T>)
      requires Valid()
      modifies this
      ensures Valid()
      ensures monitor == Tracked(Entered(old(Snap()), recoveryTimeout, enterNow).state, state, old(monitor))
      ensures match Admit(old(Snap()), recoveryTimeout, enterNow)
              case Refused(e) => r == RaisedBreakerError(e) && Snap() == old(Snap())
              case Admitted(next) =>
                && r == DecoratorResult(Config(), outcome)
                && Snap() == AfterExit(next, Config(), DecoratorExitException(Config(), outcome), exitNow)
    {
      var err := CheckState(enterNow);
      if err.Some? {
        return RaisedBreakerError(err.value);
      }
      match outcome
      case Returns(v) =>
        ExitBlock(None, exitNow);
        r := Returned(v);
      case Raises(k) =>
        if k in expectedExceptions {
          ExitBlock(Some(ErrorKind.CircuitBreakerError), exitNow);
          r := RaisedBreakerError(Blocked(k));
        } else {
          ExitBlock(Some(k), exitNow);
          r := RaisedOther(k);
        }
    }

    /** The decorator with the exit classification applied to the exception the wrapped
        function actually raised; the caller observes the same results as with `Call`. */
    method CallFixed<T>(enterNow: int, outcome: OpOutcome<T>, exitNow: int) returns (r: CallResult<T>)
      requires Valid()
      modifies this
      ensures Valid()
      ensures monitor == Tracked(Entered(old(Snap()), recoveryTimeout, enterNow).state, state, old(monitor))
      ensures match Admit(old(Snap()), recoveryTimeout, enterNow)
              case Refused(e) => r == RaisedBreakerError(e) && Snap() == old(Snap())
              case Admitted(next) =>
                && r == DecoratorResult(Config(), outcome)
                && Snap() == AfterExit(next, Config(), Raised(outcome), exitNow)
    {
      var err := CheckState(enterNow);
      if err.Some? {
        return RaisedBreakerError(err.value);
      }
      ExitBlock(Raised(outcome), exitNow);
      r := DecoratorResult(Config(), outcome);
    }

    /** The synchronous `context`: no admission check; an expected exception records a
        failure and is re-raised wrapped, no exception records a success, any other
        exception propagates and records nothing.  Both records go through `asyncio.run`:
        inside a running event loop (`loopRunning`) it raises `RuntimeError` instead and
        nothing is recorded; otherwise it cancels, on return, a monitor task `_open`
        started in its own loop. */
    method Context<T>(outcome: OpOutcome<T>, now: int, loopRunning: bool) returns (r: CallResult<T>)
      requires Valid()
      modifies this
      ensures Valid()
      ensures loopRunning ==> Mach() == old(Mach())
      ensures loopRunning ==>
        r == (if outcome.Raises? && outcome.kind !in expectedExceptions then RaisedOther(outcome.kind)
              else RaisedOther(RuntimeError))
      ensures !loopRunning ==> r == DecoratorResult(Config(), outcome)
      ensures !loopRunning ==> Mach() == AfterContext(old(Mach()), Config(), Raised(outcome), now)
    {
      if loopRunning {
        if outcome.Raises? && outcome.kind !in expectedExceptions {
          r := RaisedOther(outcome.kind);
        } else {
          r := RaisedOther(RuntimeError);
        }
        return;
      }
      var before := monitor;
      match outcome
      case Returns(v) =>
        RecordSuccess();
        r := Returned(v);
      case Raises(k) =>
        if k in expectedExceptions {
          RecordFailure(now);
          r := RaisedBreakerError(Blocked(k));
        } else {
          r := RaisedOther(k);
        }
      if before == Idle {
        // Any task pending now was created in the loop `asyncio.run` made, which cancels it.
        monitor := Idle;
      }
    }
  }

  // ---------------------------------------------------------------------------
  // The decorator's exit classification

  /** As written: when `expected_exceptions` does not cover `CircuitBreakerError`, an
      expected failure of the wrapped function is never counted, so a decorated call can
      never trip the breaker. */
  lemma DecoratorDropsExpectedFailures<T>(s: Snapshot, cfg: BreakerConfig, k: ErrorKind, now: int)
    requires k in cfg.expectedExceptions && ErrorKind.CircuitBreakerError !in cfg.expectedExceptions
    ensures AfterExit(s, cfg, DecoratorExitException<T>(cfg, Raises(k)), now) == s
  {
  }

  /** The concrete case: threshold 1, expected `(ConnectionError,)`, a decorated call that
      raises `ConnectionError` leaves a new breaker CLOSED with no failure counted. */
  lemma DecoratorCounterexample()
    ensures var cfg := BreakerConfig(1, 30, {ConnectionError});
      var a := Admit(InitialSnapshot, 30, 0);
      && a == Admitted(InitialSnapshot)
      && AfterExit(a.next, cfg, DecoratorExitException<int>(cfg, Raises(ConnectionError)), 0) == InitialSnapshot
  {
  }

  /** Corrected: classifying the exception the wrapped function raised counts every
      expected failure, and trips a CLOSED breaker once the threshold is reached. */
  lemma DecoratorFixedCountsExpectedFailures<T>(s: Snapshot, cfg: BreakerConfig, k: ErrorKind, now: int)
    requires k in cfg.expectedExceptions
    ensures AfterExit(s, cfg, Raised<T>(Raises(k)), now) == AfterFailure(s, cfg.failureThreshold, now)
    ensures s.state == Closed && s.stats.failures + 1 >= cfg.failureThreshold ==>
      AfterExit(s, cfg, Raised<T>(Raises(k)), now).state == Open
  {
  }

  // ---------------------------------------------------------------------------
  // The recovery monitor

  predicate NoExits(events: seq<Event>)
  {
    forall i :: 0 <= i < |events| ==> !events[i].Exit? && !events[i].ContextExit?
  }

  lemma {:induction false} HalfOpenWithoutExits(h: Machine, cfg: BreakerConfig, events: seq<Event>)
    requires h.snap.state == HalfOpen && h.monitor == Idle && NoExits(events)
    ensures Run(h, cfg, events) == h
    decreases |events|
  {
    if events != [] {
      assert Step(h, cfg, events[0]) == h;
      assert NoExits(events[1..]) by {
        forall i | 0 <= i < |events[1..]| ensures !events[1..][i].Exit? && !events[1..][i].ContextExit? {
          assert events[1..][i] == events[i + 1];
        }
      }
      HalfOpenWithoutExits(h, cfg, events[1..]);
    }
  }

  /** As written: a monitor that wakes to find the recovery time elapsed moves OPEN to
      HALF_OPEN without admitting anyone and leaves its loop, and HALF_OPEN refuses every
      admission; so the breaker stays exactly as the monitor left it, admitting nothing,
      through any sequence of admissions and monitor events, until some call admitted
      earlier exits. */
  lemma MonitorStrandsHalfOpen(b: Machine, cfg: BreakerConfig, now: int, events: seq<Event>)
    requires b.snap.state == Open && b.monitor == Sleeping && RecoveryElapsed(b.snap, cfg.recoveryTimeout, now)
    requires NoExits(events)
    ensures AfterMonitorWake(b, cfg.recoveryTimeout, now).snap.state == HalfOpen
    ensures Run(AfterMonitorWake(b, cfg.recoveryTimeout, now), cfg, events) == AfterMonitorWake(b, cfg.recoveryTimeout, now)
    ensures forall t :: Admit(AfterMonitorWake(b, cfg.recoveryTimeout, now).snap, cfg.recoveryTimeout, t).Refused?
  {
    HalfOpenWithoutExits(AfterMonitorWake(b, cfg.recoveryTimeout, now), cfg, events);
  }

  /** As written: with recovery timeout 30 and the breaker OPEN since a failure at t = 0,
      the monitor asleep, a request at t = 31 moves it to HALF_OPEN; the monitor wakes at
      t = 35, finds the timer elapsed and calls `_half_open` again, so one move to
      HALF_OPEN is counted as two state changes. */
  lemma MonitorCountsHalfOpenTwice()
    ensures var cfg := BreakerConfig(3, 30, {ConnectionError, TimeoutError});
      var b0 := Machine(Snapshot(Open, CircuitBreakerStats(3, 0, Some(0), 1)), Sleeping);
      var b1 := Step(b0, cfg, Enter(31));
      var b2 := Step(b1, cfg, MonitorWake(35));
      && Reachable(b0, cfg.failureThreshold)
      && b1.snap.state == HalfOpen && b1.snap.stats.stateChanges == 2
      && b2.snap.state == HalfOpen && b2.snap.stats.stateChanges == 3
      && !CountsChange(b1.snap, b2.snap)
  {
  }

  /** A breaker tripped through `context` has no monitor task, unlike one tripped through
      `async with`: threshold 1, `(ConnectionError,)` expected, one failure at t = 0. */
  lemma ContextLeavesOpenUnmonitored()
    ensures var cfg := BreakerConfig(1, 30, {ConnectionError});
      var b0 := Machine(InitialSnapshot, Idle);
      var viaContext := Step(b0, cfg, ContextExit(Some(ConnectionError), 0));
      var viaAsync := Step(b0, cfg, Exit(Some(ConnectionError), 0));
      && viaContext.snap == viaAsync.snap && viaContext.snap.state == Open
      && viaContext.monitor == Idle && !MonitorAgrees(viaContext.snap.state, viaContext.monitor)
      && viaAsync.monitor == Starting
  {
  }

  /** As written: `_close` only requests the monitor's cancellation and leaves the task in
      `_monitor_task`, so an `_open` before that task's next step starts no new one, and
      when the cancelled task then finishes the breaker is OPEN with no monitor.  Threshold
      1, timeout 30: calls A and B are admitted at t = 0; B fails and trips the breaker;
      the monitor goes to sleep; C is admitted at t = 100 as the HALF_OPEN probe and
      succeeds; A then fails, before the cancelled monitor's next step. */
  lemma CloseThenOpenLeavesOpenUnmonitored()
    ensures var cfg := BreakerConfig(1, 30, {ConnectionError});
      var b2 := Step(Step(Machine(InitialSnapshot, Idle), cfg, Enter(0)), cfg, Enter(0));
      var b3 := Step(b2, cfg, Exit(Some(ConnectionError), 0));
      var b4 := Step(b3, cfg, MonitorStart);
      var b5 := Step(b4, cfg, Enter(100));
      var b6 := Step(b5, cfg, Exit(None, 100));
      var b7 := Step(b6, cfg, Exit(Some(ConnectionError), 100));
      var b8 := Step(b7, cfg, MonitorFinish);
      && b4 == Machine(b3.snap, Sleeping) && b3.snap.state == Open
      && b5.snap.state == HalfOpen
      && b6 == Machine(b6.snap, Cancelling) && b6.snap.state == Closed
      && b7 == Machine(b7.snap, Cancelling) && b7.snap.state == Open
      && b8 == Machine(b7.snap, Idle)
      && !MonitorAgrees(b8.snap.state, b8.monitor)
  {
  }

  /** Corrected `_close`: the cancelled task is also dropped from `_monitor_task`, so the
      next `_open` starts a new monitor. */
  function TrackedFixed(from: CircuitState, to: CircuitState, m: MonitorPhase): (r: MonitorPhase)
    ensures m != Cancelling ==> r != Cancelling
    ensures from != to ==> MonitorAgrees(to, r)
    ensures MonitorAgrees(from, m) ==> MonitorAgrees(to, r)
  {
    if from == to then m
    else if to == Closed then Idle
    else if to == Open then Started(m)
    else m
  }

  /** A step with the corrected `_close`. */
  function StepFixed(b: Machine, cfg: BreakerConfig, e: Event): Machine
  {
    match e
    case Enter(now) =>
      var s := Entered(b.snap, cfg.recoveryTimeout, now);
      Machine(s, TrackedFixed(b.snap.state, s.state, b.monitor))
    case Exit(exc, now) =>
      var s := AfterExit(b.snap, cfg, exc, now);
      Machine(s, TrackedFixed(b.snap.state, s.state, b.monitor))
    case _ => Step(b, cfg, e)
  }

  function RunFixed(b: Machine, cfg: BreakerConfig, events: seq<Event>): Machine
    decreases |events|
  {
    if events == [] then b else RunFixed(StepFixed(b, cfg, events[0]), cfg, events[1..])
  }

  predicate NoContextExits(events: seq<Event>)
  {
    forall i :: 0 <= i < |events| ==> !events[i].ContextExit?
  }

  /** Corrected: with no cancelled task pending, every run without `context` exits, the
      monitor tasks' own steps included, keeps a monitor task while OPEN and none live
      while CLOSED, and no cancelled task is ever pending. */
  lemma {:induction false} RunFixedKeepsMonitor(b: Machine, cfg: BreakerConfig, events: seq<Event>)
    requires b.monitor != Cancelling && MonitorAgrees(b.snap.state, b.monitor)
    requires NoContextExits(events)
    ensures RunFixed(b, cfg, events).monitor != Cancelling
    ensures MonitorAgrees(RunFixed(b, cfg, events).snap.state, RunFixed(b, cfg, events).monitor)
    decreases |events|
  {
    if events != [] {
      assert !events[0].ContextExit?;
      var b1 := StepFixed(b, cfg, events[0]);
      assert b1.monitor != Cancelling && MonitorAgrees(b1.snap.state, b1.monitor) by {
        match events[0]
        case Enter(now) =>
        case Exit(exc, now) =>
        case MonitorStart =>
        case MonitorWake(now) =>
        case MonitorFinish =>
      }
      assert NoContextExits(events[1..]) by {
        forall i | 0 <= i < |events[1..]| ensures !events[1..][i].ContextExit? {
          assert events[1..][i] == events[i + 1];
        }
      }
      RunFixedKeepsMonitor(b1, cfg, events[1..]);
    }
  }

  /** Corrected, on the same trace: the probe's success drops the sleeping monitor, and
      A's failure starts a new one. */
  lemma CloseThenOpenFixed()
    ensures var cfg := BreakerConfig(1, 30, {ConnectionError});
      var b2 := StepFixed(StepFixed(Machine(InitialSnapshot, Idle), cfg, Enter(0)), cfg, Enter(0));
      var b3 := StepFixed(b2, cfg, Exit(Some(ConnectionError), 0));
      var b4 := StepFixed(b3, cfg, MonitorStart);
      var b5 := StepFixed(b4, cfg, Enter(100));
      var b6 := StepFixed(b5, cfg, Exit(None, 100));
      var b7 := StepFixed(b6, cfg, Exit(Some(ConnectionError), 100));
      var b8 := StepFixed(b7, cfg, MonitorFinish);
      && b6 == Machine(b6.snap, Idle) && b6.snap.state == Closed
      && b8 == Machine(b7.snap, Starting) && b8.snap.state == Open
      && MonitorAgrees(b8.snap.state, b8.monitor)
  {
  }

  /** Corrected monitor body: the timer test applies only while the breaker is OPEN. */
  function AfterMonitorWakeFixed(b: Machine, recoveryTimeout: int, now: int): Machine
  {
    if b.monitor != Sleeping then b
    else
      var s := if b.snap.state == Open then MonitorBody(b.snap, recoveryTimeout, now) else b.snap;
      Machine(s, if s.state == Open then Sleeping else Idle)
  }

  /** Corrected: a monitor wake keeps the invariant, moves along a legal edge and counts
      its state change as intended; it acts as written whenever the breaker is OPEN. */
  lemma MonitorWakeFixedCountsOnce(b: Machine, cfg: BreakerConfig, now: int)
    requires Reachable(b, cfg.failureThreshold)
    ensures Reachable(AfterMonitorWakeFixed(b, cfg.recoveryTimeout, now), cfg.failureThreshold)
    ensures LegalEdge(b.snap.state, AfterMonitorWakeFixed(b, cfg.recoveryTimeout, now).snap.state)
    ensures CountsChange(b.snap, AfterMonitorWakeFixed(b, cfg.recoveryTimeout, now).snap)
    ensures b.snap.state == Open ==>
      AfterMonitorWakeFixed(b, cfg.recoveryTimeout, now) == AfterMonitorWake(b, cfg.recoveryTimeout, now)
  {
  }

  /** A breaker together with whether a probe admitted in HALF_OPEN is still running. */
  datatype ProbeState = ProbeState(snap: Snapshot, probeInFlight: bool)

  /** Corrected admission: as `_check_state`, except that a HALF_OPEN breaker with no probe
      in flight admits one caller as its probe. */
  function AdmitFixed(p: ProbeState, recoveryTimeout: int, now: int): Result<ProbeState, BreakerError>
  {
    match p.snap.state
    case Closed => Ok(p)
    case Open =>
      if RecoveryElapsed(p.snap, recoveryTimeout, now) then Ok(ProbeState(HalfOpened(p.snap), true))
      else Err(CircuitOpen(p.snap.stats.failures))
    case HalfOpen =>
      if p.probeInFlight then Err(CircuitHalfOpen) else Ok(ProbeState(p.snap, true))
  }

  /** Corrected monitor move: the move to HALF_OPEN leaves the probe slot free. */
  function MonitorMoveFixed(p: ProbeState, recoveryTimeout: int, now: int): ProbeState
  {
    if p.snap.state == Open && RecoveryElapsed(p.snap, recoveryTimeout, now)
    then ProbeState(HalfOpened(p.snap), false)
    else p
  }

  /** Corrected: after the monitor moves to HALF_OPEN, the next admission (at any time) is
      the probe and the one after it is refused: exactly one probe. */
  lemma MonitorThenOneProbe(p: ProbeState, recoveryTimeout: int, now: int, t1: int, t2: int)
    requires p.snap.state == Open && RecoveryElapsed(p.snap, recoveryTimeout, now)
    ensures var q := MonitorMoveFixed(p, recoveryTimeout, now);
      && q.snap.state == HalfOpen
      && AdmitFixed(q, recoveryTimeout, t1).Ok?
      && AdmitFixed(AdmitFixed(q, recoveryTimeout, t1).value, recoveryTimeout, t2) == Err(CircuitHalfOpen)
  {
  }

  /** The corrected admission is the written one whenever HALF_OPEN was entered by an
      admission (its probe is in flight), i.e. on every path that does not involve the
      monitor. */
  lemma AdmitFixedAgrees(p: ProbeState, recoveryTimeout: int, now: int)
    requires p.snap.state == HalfOpen ==> p.probeInFlight
    ensures AdmitFixed(p, recoveryTimeout, now).Ok? <==> Admit(p.snap, recoveryTimeout, now).Admitted?
    ensures AdmitFixed(p, recoveryTimeout, now).Ok? ==>
      AdmitFixed(p, recoveryTimeout, now).value.snap == Admit(p.snap, recoveryTimeout, now).next
    ensures AdmitFixed(p, recoveryTimeout, now).Err? ==>
      AdmitFixed(p, recoveryTimeout, now).error == Admit(p.snap, recoveryTimeout, now).error
  {
  }
}

=== FILE: codec.dfy ===
/** The byte strings the cache stores and the codecs applied to them: JSON text encoded
    as UTF-8, gzip compression, and WeatherResponse validation.  Bytes are symbolic: a
    value records how it was produced, so decompressing a compressed value and parsing a
    serialized document give back what went in, and anything else fails the way the
    codec fails on foreign input. */
module Codec {
  import opened Errors

  /** A JSON document, by what `WeatherResponse.parse_raw` makes of it. */
  datatype Doc =
    | WeatherJson(text: string)  // a document that validates as a WeatherResponse
    | OtherJson(text: string)    // a document WeatherResponse validation rejects
    | LocationIndexJson(primaryCacheKey: string, lastUpdated: int)  // the location index record

  /** A byte string held by the store. */
  datatype Bytes =
    | Utf8(doc: Doc)          // `text.encode('utf-8')` of a document's JSON text
    | Gzipped(inner: Bytes)   // `gzip.compress(inner)`
    | Opaque(raw: seq<int>)   // bytes written by another program: not a gzip stream, not a document

  /** Python truthiness of `bytes`: only the empty string is false.  JSON text and gzip
      streams are never empty. */
  predicate Truthy(b: Bytes)
  {
    !(b.Opaque? && b.raw == [])
  }

  /** `gzip.compress`. */
  function Compress(b: Bytes): (r: Bytes)
    ensures Truthy(r)
  {
    Gzipped(b)
  }

  /** `gzip.decompress`: `BadGzipFile` unless the input is a gzip stream. */
  function Decompress(b: Bytes): (r: Result<Bytes, ErrorKind>)
    ensures r.Ok? <==> b.Gzipped?
    ensures r.Err? ==> r.error == BadGzipFile
  {
    match b
    case Gzipped(inner) => Ok(inner)
    case _ => Err(BadGzipFile)
  }

  /** `.decode('utf-8')` followed by reading the JSON text: a `ValueError` unless the bytes
      are a UTF-8 encoded document (a gzip stream's second byte, 0x8b, is never a valid
      UTF-8 start byte). */
  function DecodeUtf8(b: Bytes): (r: Result<Doc, ErrorKind>)
    ensures r.Ok? <==> b.Utf8?
    ensures r.Err? ==> r.error == ValueError
  {
    match b
    case Utf8(d) => Ok(d)
    case _ => Err(ValueError)
  }

  /** `WeatherResponse.parse_raw`: pydantic raises a `ValidationError` (a `ValueError`)
      for a document that does not validate. */
  function ParseWeatherResponse(d: Doc): (r: Result<Doc, ErrorKind>)
    ensures r.Ok? <==> d.WeatherJson?
    ensures r.Ok? ==> r.value == d
  {
    if d.WeatherJson? then Ok(d) else Err(ValueError)
  }

  /** The inverse laws the cache relies on. */
  lemma CodecRoundTrip(b: Bytes, d: Doc)
    ensures Decompress(Compress(b)) == Ok(b)
    ensures DecodeUtf8(Utf8(d)) == Ok(d)
    ensures d.WeatherJson? ==> ParseWeatherResponse(d) == Ok(d)
  {
  }
}

=== FILE: config.dfy ===
/** Cache-key derivation (`CacheKeys`) and the provider ordering (`active_providers`)
    of the service configuration. */
module Config {
  import opened Errors

  const WeatherPrefix: string := "weather:"
  const LocationPrefix: string := "location:"
  const AlertsPrefix: string := "alerts:"
  const ForecastPrefix: string := "forecast:"

  /** Lower-casing of one character, over ASCII: `str.lower` restricted to A-Z. */
  function LowerChar(c: char): char
  {
    if 'A' <= c <= 'Z' then (c as int + 32) as char else c
  }

  /** `s.lower()`, character by character. */
  function Lower(s: string): (r: string)
    ensures |r| == |s|
    ensures forall i :: 0 <= i < |s| ==> r[i] == LowerChar(s[i])
  {
    if s == [] then [] else [LowerChar(s[0])] + Lower(s[1..])
  }

  /** Lower-casing twice is lower-casing once. */
  lemma LowerIdempotent(s: string)
    ensures Lower(Lower(s)) == Lower(s)
  {
    forall i | 0 <= i < |s|
      ensures Lower(Lower(s))[i] == Lower(s)[i]
    {
      var c := s[i];
      assert Lower(s)[i] == LowerChar(c);
    }
  }

  /** `CacheKeys.weather_key`: the weather prefix followed by the lower-cased location. */
  function WeatherKey(location: string): (r: string)
    ensures |r| == |WeatherPrefix| + |location|
    ensures r[..|WeatherPrefix|] == WeatherPrefix && r[|WeatherPrefix|..] == Lower(location)
  {
    WeatherPrefix + Lower(location)
  }

  /** `CacheKeys.forecast_key`: the forecast prefix followed by the lower-cased location. */
  function ForecastKey(location: string): (r: string)
    ensures |r| == |ForecastPrefix| + |location|
    ensures r[..|ForecastPrefix|] == ForecastPrefix && r[|ForecastPrefix|..] == Lower(location)
  {
    ForecastPrefix + Lower(location)
  }

  /** `CacheKeys.location_key`, called by the cache code but absent from `CacheKeys`:
      taken to be the location prefix followed by its (already lower-cased) argument. */
  function LocationKey(location: string): (r: string)
    ensures |r| == |LocationPrefix| + |location|
    ensures r[..|LocationPrefix|] == LocationPrefix && r[|LocationPrefix|..] == location
  {
    LocationPrefix + location
  }

  /** Two locations share a weather key exactly when they agree after lower-casing. */
  lemma WeatherKeySameIff(a: string, b: string)
    ensures WeatherKey(a) == WeatherKey(b) <==> Lower(a) == Lower(b)
  {
    if WeatherKey(a) == WeatherKey(b) {
      assert Lower(a) == WeatherKey(a)[|WeatherPrefix|..];
    }
  }

  /** Two locations share a forecast key exactly when they agree after lower-casing. */
  lemma ForecastKeySameIff(a: string, b: string)
    ensures ForecastKey(a) == ForecastKey(b) <==> Lower(a) == Lower(b)
  {
    if ForecastKey(a) == ForecastKey(b) {
      assert Lower(a) == ForecastKey(a)[|ForecastPrefix|..];
    }
  }

  /** Keys are case-insensitive in the location. */
  lemma WeatherKeyOfLowered(location: string)
    ensures WeatherKey(Lower(location)) == WeatherKey(location)
    ensures ForecastKey(Lower(location)) == ForecastKey(location)
  {
    LowerIdempotent(location);
  }

  /** A weather key is never a forecast key, a location key or a compressed weather key's
      location key: the prefixes differ in their first character. */
  lemma KeyFamiliesDisjoint(a: string, b: string, suffix: string)
    ensures WeatherKey(a) != ForecastKey(b)
    ensures LocationKey(a) != WeatherKey(b) + suffix
  {
    assert WeatherKey(a)[0] == 'w' != 'f' == ForecastKey(b)[0];
    assert LocationKey(a)[0] == 'l' != 'w' == (WeatherKey(b) + suffix)[0];
  }

  /** The location index key determines its argument. */
  lemma LocationKeyInjective(a: string, b: string)
    ensures LocationKey(a) == LocationKey(b) <==> a == b
  {
    if LocationKey(a) == LocationKey(b) {
      assert a == LocationKey(a)[|LocationPrefix|..];
    }
  }

  // ---------------------------------------------------------------------------
  // Providers

  /** One entry of `weather_api_providers`; `enabled` is `None` when the key is missing. */
  datatype Provider = Provider(
    name: string,
    urlTemplate: string,
    apiKey: Option<string>,
    priority: int,
    enabled: Option<bool>)

  /** `p.get("enabled", True)`. */
  predicate IsEnabled(p: Provider)
  {
    p.enabled.None? || p.enabled.value
  }

  /** The list comprehension: the enabled providers, in their original order. */
  function FilterEnabled(ps: seq<Provider>): (r: seq<Provider>)
    ensures forall p :: multiset(r)[p] == if IsEnabled(p) then multiset(ps)[p] else 0
  {
    if ps == [] then []
    else
      assert ps == [ps[0]] + ps[1..];
      (if IsEnabled(ps[0]) then [ps[0]] else []) + FilterEnabled(ps[1..])
  }

  /** The comprehension keeps the input order: filtering a concatenation filters each part
      in turn. */
  lemma {:induction false} FilterEnabledAppend(a: seq<Provider>, b: seq<Provider>)
    ensures FilterEnabled(a + b) == FilterEnabled(a) + FilterEnabled(b)
  {
    if a == [] {
      assert a + b == b;
    } else {
      assert (a + b)[0] == a[0];
      assert (a + b)[1..] == a[1..] + b;
      FilterEnabledAppend(a[1..], b);
    }
  }

  /** A single provider is kept exactly when it is enabled; with `FilterEnabledAppend` this
      determines the filtered list, order included, for every input. */
  lemma FilterEnabledSingle(p: Provider)
    ensures FilterEnabled([p]) == if IsEnabled(p) then [p] else []
  {
    assert [p][1..] == [];
  }

  /** Filtering commutes with taking the providers of one priority. */
  lemma {:induction false} FilterOfPriority(k: int, ps: seq<Provider>)
    ensures OfPriority(k, FilterEnabled(ps)) == FilterEnabled(OfPriority(k, ps))
  {
    if ps != [] {
      FilterOfPriority(k, ps[1..]);
      var head := if IsEnabled(ps[0]) then [ps[0]] else [];
      OfPriorityAppend(k, head, FilterEnabled(ps[1..]));
      var mine := if ps[0].priority == k then [ps[0]] else [];
      FilterEnabledAppend(mine, OfPriority(k, ps[1..]));
      if ps[0].priority == k {
        FilterEnabledSingle(ps[0]);
      }
      if IsEnabled(ps[0]) {
        assert OfPriority(k, head) == mine by {
          assert head[1..] == [];
        }
      }
    }
  }

  lemma {:induction false} OfPriorityAppend(k: int, a: seq<Provider>, b: seq<Provider>)
    ensures OfPriority(k, a + b) == OfPriority(k, a) + OfPriority(k, b)
  {
    if a == [] {
      assert a + b == b;
    } else {
      var h := if a[0].priority == k then [a[0]] else [];
      assert (a + b)[0] == a[0];
      assert (a + b)[1..] == a[1..] + b;
      OfPriorityAppend(k, a[1..], b);
      assert OfPriority(k, a + b) == h + (OfPriority(k, a[1..]) + OfPriority(k, b));
      assert OfPriority(k, a) == h + OfPriority(k, a[1..]);
    }
  }

  predicate SortedByPriority(s: seq<Provider>)
  {
    forall i, j :: 0 <= i < j < |s| ==> s[i].priority <= s[j].priority
  }

  /** The subsequence of `s` whose priority is `k`, in order. */
  function OfPriority(k: int, s: seq<Provider>): seq<Provider>
  {
    if s == [] then []
    else (if s[0].priority == k then [s[0]] else []) + OfPriority(k, s[1..])
  }

  /** Insertion of `p` before the first entry whose priority is not smaller. */
  function InsertByPriority(p: Provider, s: seq<Provider>): (r: seq<Provider>)
    ensures multiset(r) == multiset(s) + multiset{p}
  {
    if s == [] || p.priority <= s[0].priority then [p] + s
    else
      assert s == [s[0]] + s[1..];
      [s[0]] + InsertByPriority(p, s[1..])
  }

  /** Insertion keeps a lower bound that `p` and every entry of `s` respect. */
  lemma {:induction false} InsertBounded(p: Provider, s: seq<Provider>, b: int)
    requires b <= p.priority
    requires forall i :: 0 <= i < |s| ==> b <= s[i].priority
    ensures forall i :: 0 <= i < |InsertByPriority(p, s)| ==> b <= InsertByPriority(p, s)[i].priority
  {
    if s != [] && s[0].priority < p.priority {
      var rest := InsertByPriority(p, s[1..]);
      assert forall i :: 0 <= i < |s[1..]| ==> b <= s[1..][i].priority by {
        forall i | 0 <= i < |s[1..]| ensures b <= s[1..][i].priority {
          assert s[1..][i] == s[i + 1];
        }
      }
      InsertBounded(p, s[1..], b);
      var r := [s[0]] + rest;
      assert InsertByPriority(p, s) == r;
      forall i | 0 <= i < |r| ensures b <= r[i].priority {
        if i > 0 {
          assert r[i] == rest[i - 1];
        }
      }
    }
  }

  lemma {:induction false} InsertSorted(p: Provider, s: seq<Provider>)
    requires SortedByPriority(s)
    ensures SortedByPriority(InsertByPriority(p, s))
  {
    if s == [] {
      assert InsertByPriority(p, s) == [p];
    } else if p.priority <= s[0].priority {
      var r := [p] + s;
      assert InsertByPriority(p, s) == r;
      forall i, j | 0 <= i < j < |r| ensures r[i].priority <= r[j].priority {
        assert r[j] == s[j - 1];
        if i > 0 {
          assert r[i] == s[i - 1];
        } else {
          assert s[0].priority <= s[j - 1].priority;
        }
      }
    } else {
      var tail := s[1..];
      assert SortedByPriority(tail) by {
        forall i, j | 0 <= i < j < |tail| ensures tail[i].priority <= tail[j].priority {
          assert tail[i] == s[i + 1] && tail[j] == s[j + 1];
        }
      }
      assert forall i :: 0 <= i < |tail| ==> s[0].priority <= tail[i].priority by {
        forall i | 0 <= i < |tail| ensures s[0].priority <= tail[i].priority {
          assert tail[i] == s[i + 1];
        }
      }
      InsertSorted(p, tail);
      InsertBounded(p, tail, s[0].priority);
      var rest := InsertByPriority(p, tail);
      var r := [s[0]] + rest;
      assert InsertByPriority(p, s) == r;
      forall i, j | 0 <= i < j < |r| ensures r[i].priority <= r[j].priority {
        assert r[j] == rest[j - 1];
        if i > 0 {
          assert r[i] == rest[i - 1];
        }
      }
    }
  }

  /** `list.sort(key=lambda x: x["priority"])` on a fresh list, as a pure insertion sort. */
  function SortByPriority(s: seq<Provider>): (r: seq<Provider>)
    ensures multiset(r) == multiset(s)
    ensures SortedByPriority(r)
  {
    if s == [] then []
    else
      assert s == [s[0]] + s[1..];
      var sorted := SortByPriority(s[1..]);
      InsertSorted(s[0], sorted);
      InsertByPriority(s[0], sorted)
  }

  lemma {:induction false} InsertStable(p: Provider, s: seq<Provider>, k: int)
    ensures OfPriority(k, InsertByPriority(p, s)) == OfPriority(k, [p] + s)
  {
    if s == [] || p.priority <= s[0].priority {
    } else {
      var r := InsertByPriority(p, s);
      assert r == [s[0]] + InsertByPriority(p, s[1..]);
      InsertStable(p, s[1..], k);
      assert r[1..] == InsertByPriority(p, s[1..]);
      assert ([p] + s)[1..] == s;
      assert ([p] + s[1..])[1..] == s[1..];
      // The two heads cannot both have priority `k`, since `s[0]` is strictly smaller.
      var hs := if s[0].priority == k then [s[0]] else [];
      var hp := if p.priority == k then [p] else [];
      var t := OfPriority(k, s[1..]);
      assert OfPriority(k, r) == hs + (hp + t);
      assert OfPriority(k, [p] + s) == hp + (hs + t);
      if hs == [] {
        assert hs + (hp + t) == hp + t == hp + (hs + t);
      } else {
        assert hp == [];
        assert hs + (hp + t) == hs + t == hp + (hs + t);
      }
    }
  }

  /** The sort is stable: providers of equal priority keep their relative order. */
  lemma {:induction false} SortStable(s: seq<Provider>, k: int)
    ensures OfPriority(k, SortByPriority(s)) == OfPriority(k, s)
  {
    if s != [] {
      InsertStable(s[0], SortByPriority(s[1..]), k);
      SortStable(s[1..], k);
      assert ([s[0]] + SortByPriority(s[1..]))[1..] == SortByPriority(s[1..]);
    }
  }

  /** `active_providers`: the enabled providers, stably sorted by priority. */
  function ActiveProviders(ps: seq<Provider>): (r: seq<Provider>)
    ensures forall p :: multiset(r)[p] == if IsEnabled(p) then multiset(ps)[p] else 0
    ensures SortedByPriority(r)
  {
    SortByPriority(FilterEnabled(ps))
  }

  /** `active_providers` holds exactly the enabled providers (with multiplicity), sorted
      by non-decreasing priority, and the providers of each priority are the enabled ones
      of that priority in their input order. */
  lemma ActiveProvidersSpec(ps: seq<Provider>)
    ensures forall p :: multiset(ActiveProviders(ps))[p] == if IsEnabled(p) then multiset(ps)[p] else 0
    ensures forall p :: p in ActiveProviders(ps) <==> p in ps && IsEnabled(p)
    ensures SortedByPriority(ActiveProviders(ps))
    ensures forall k :: OfPriority(k, ActiveProviders(ps)) == OfPriority(k, FilterEnabled(ps))
    ensures forall k :: OfPriority(k, ActiveProviders(ps)) == FilterEnabled(OfPriority(k, ps))
  {
    var f := FilterEnabled(ps);
    forall p ensures p in ActiveProviders(ps) <==> p in ps && IsEnabled(p) {
      assert p in ActiveProviders(ps) <==> p in multiset(ActiveProviders(ps));
      assert p in ps <==> p in multiset(ps);
    }
    forall k ensures OfPriority(k, ActiveProviders(ps)) == OfPriority(k, f) {
      SortStable(f, k);
    }
    forall k ensures OfPriority(k, f) == FilterEnabled(OfPriority(k, ps)) {
      FilterOfPriority(k, ps);
    }
  }

  /** `weather_api_providers`; the two API keys come from the environment. */
  function WeatherApiProviders(owmApiKey: Option<string>, weatherApiKey: Option<string>): seq<Provider>
  {
    [ Provider("National Weather Service", "https://api.weather.gov/points/{location}",
               None, 1, None),
      Provider("OpenWeatherMap",
               "https://api.openweathermap.org/data/2.5/weather?q={location}&appid={api_key}",
               owmApiKey, 2, None),
      Provider("WeatherAPI", "http://api.weatherapi.com/v1/current.json?key={api_key}&q={location}",
               weatherApiKey, 3, None) ]
  }

  lemma {:induction false} FilterAllEnabled(ps: seq<Provider>)
    requires forall p :: p in ps ==> IsEnabled(p)
    ensures FilterEnabled(ps) == ps
  {
    if ps != [] {
      FilterAllEnabled(ps[1..]);
    }
  }

  lemma {:induction false} SortAlreadySorted(ps: seq<Provider>)
    requires SortedByPriority(ps)
    ensures SortByPriority(ps) == ps
  {
    if ps != [] {
      SortAlreadySorted(ps[1..]);
    }
  }

  /** A list that is all enabled and already in priority order is its own `active_providers`. */
  lemma ActiveProvidersOfSorted(ps: seq<Provider>)
    requires forall p :: p in ps ==> IsEnabled(p)
    requires SortedByPriority(ps)
    ensures ActiveProviders(ps) == ps
  {
    FilterAllEnabled(ps);
    SortAlreadySorted(ps);
  }

  /** With the built-in list, every provider is active and already in priority order. */
  lemma DefaultActiveProviders(owmApiKey: Option<string>, weatherApiKey: Option<string>)
    ensures ActiveProviders(WeatherApiProviders(owmApiKey, weatherApiKey))
         == WeatherApiProviders(owmApiKey, weatherApiKey)
  {
    ActiveProvidersOfSorted(WeatherApiProviders(owmApiKey, weatherApiKey));
  }
}

=== FILE: errors.dfy ===
/** Shared result types and the exception classes the cache and breaker code distinguish. */
module Errors {

  datatype Option<+T> = None | Some(value: T)

  datatype Result<+T, +E> = Ok(value: T) | Err(error: E)

  /** The Python exception classes that reach a breaker's exit classification or an
      `except` clause in the cache code, each as one leaf kind.  A tuple of exception
      classes (`expected_exceptions`) becomes the set of leaf kinds it covers. */
  datatype ErrorKind =
    | ConnectionError      // builtin ConnectionError (store transport)
    | TimeoutError         // builtin TimeoutError (store transport)
    | ValueError           // ValueError and its subclasses: UnicodeDecodeError, pydantic ValidationError
    | BadGzipFile          // gzip.BadGzipFile, an OSError that is not a ConnectionError
    | ResponseError        // the store refused a command (non-positive expire time)
    | CacheMissError       // CacheMiss
    | CircuitBreakerError  // CircuitBreakerError
    | RuntimeError         // RuntimeError (`asyncio.run` inside a running event loop)
    | OtherError           // anything else raised by a guarded operation

  /** `(Exception,)`: every kind above. */
  const AnyException: set<ErrorKind> :=
    {ConnectionError, TimeoutError, ValueError, BadGzipFile, ResponseError,
     CacheMissError, CircuitBreakerError, RuntimeError, OtherError}

  /** How a guarded operation ended: it returned a value or raised. */
  datatype OpOutcome<+T> = Returns(value: T) | Raises(kind: ErrorKind)

  /** The exception (if any) seen by an `__aexit__`/`except` classification. */
  function Raised<T>(o: OpOutcome<T>): Option<ErrorKind>
  {
    match o
    case Returns(_) => None
    case Raises(k) => Some(k)
  }
}

=== FILE: kv_store.dfy ===
/** The key-value store the cache is written against: string keys holding byte strings
    with a time-to-live, and sorted sets of timestamps.  A transport failure of one
    command is an input (`fault`); a failed command changes nothing. */
module KvStore {
  import opened Errors
  import opened Codec

  datatype Entry = Entry(value: Bytes, ttl: int)

  /** `GET key`. */
  function StoreGet(kv: map<string, Entry>, key: string, fault: Option<ErrorKind>): (r: Result<Option<Bytes>, ErrorKind>)
    ensures fault.None? ==> r.Ok? && (r.value.Some? <==> key in kv)
  {
    match fault
    case Some(k) => Err(k)
    case None => Ok(if key in kv then Some(kv[key].value) else None)
  }

  /** `SETEX key ttl value`: the store refuses a time-to-live that is not positive. */
  function StoreSetex(kv: map<string, Entry>, key: string, ttl: int, value: Bytes, fault: Option<ErrorKind>)
    : (r: Result<map<string, Entry>, ErrorKind>)
    ensures r.Ok? <==> fault.None? && ttl > 0
    ensures r.Ok? ==> r.value.Keys == kv.Keys + {key}
    ensures r.Ok? ==> r.value[key] == Entry(value, ttl)
    ensures r.Ok? ==> forall k :: k != key && k in kv ==> r.value[k] == kv[k]
  {
    match fault
    case Some(k) => Err(k)
    case None => if ttl <= 0 then Err(ResponseError) else Ok(kv[key := Entry(value, ttl)])
  }

  /** The members of a sorted set whose score lies outside `[lo, hi]`
      (what `ZREMRANGEBYSCORE key lo hi` keeps). */
  function OutsideRange(members: set<int>, lo: int, hi: int): (r: set<int>)
    ensures r <= members
    ensures forall m :: m in members ==> (m in r <==> !(lo <= m <= hi))
  {
    set m | m in members && !(lo <= m <= hi)
  }

  /** The members of the sorted set at `key`; a missing key is the empty set. */
  function Members(zsets: map<string, set<int>>, key: string): set<int>
  {
    if key in zsets then zsets[key] else {}
  }

  class Store {
    var kv: map<string, Entry>
    /** Sorted sets of timestamps: each member is the decimal text of its own score, so a
        member is identified by its score. */
    var zsets: map<string, set<int>>
    var zttl: map<string, int>

    constructor ()
      ensures kv == map[] && zsets == map[] && zttl == map[]
    {
      kv, zsets, zttl := map[], map[], map[];
    }

    method Get(key: string, fault: Option<ErrorKind>) returns (r: Result<Option<Bytes>, ErrorKind>)
      ensures r == StoreGet(kv, key, fault)
    {
      if fault.Some? {
        return Err(fault.value);
      }
      r := Ok(if key in kv then Some(kv[key].value) else None);
    }

    method Setex(key: string, ttl: int, value: Bytes, fault: Option<ErrorKind>) returns (err: Option<ErrorKind>)
      modifies this
      ensures zsets == old(zsets) && zttl == old(zttl)
      ensures match StoreSetex(old(kv), key, ttl, value, fault)
              case Ok(m) => err == None && kv == m
              case Err(k) => err == Some(k) && kv == old(kv)
    {
      if fault.Some? {
        return Some(fault.value);
      }
      if ttl <= 0 {
        return Some(ResponseError);
      }
      kv := kv[key := Entry(value, ttl)];
      err := None;
    }

    /** `ZREMRANGEBYSCORE key lo hi`; a set left empty is deleted with its expiry. */
    method ZRemRangeByScore(key: string, lo: int, hi: int)
      modifies this
      ensures kv == old(kv)
      ensures var rest := OutsideRange(Members(old(zsets), key), lo, hi);
        if rest == {} then zsets == old(zsets) - {key} && zttl == old(zttl) - {key}
        else zsets == old(zsets)[key := rest] && zttl == old(zttl)
    {
      var rest := OutsideRange(Members(zsets, key), lo, hi);
      if rest == {} {
        zsets := zsets - {key};
        zttl := zttl - {key};
      } else {
        zsets := zsets[key := rest];
      }
    }

    /** `ZCARD key`. */
    method ZCard(key: string) returns (n: nat)
      ensures n == |Members(zsets, key)|
    {
      n := if key in zsets then |zsets[key]| else 0;
    }

    /** `ZADD key {str(t): t}`. */
    method ZAdd(key: string, t: int)
      modifies this
      ensures kv == old(kv) && zttl == old(zttl)
      ensures zsets == old(zsets)[key := Members(old(zsets), key) + {t}]
    {
      zsets := zsets[key := Members(zsets, key) + {t}];
    }

    /** `EXPIRE key seconds` on a sorted set: a time-to-live that is not positive deletes
        the key. */
    method Expire(key: string, seconds: int)
      modifies this
      ensures kv == old(kv)
      ensures key !in old(zsets) ==> zsets == old(zsets) && zttl == old(zttl)
      ensures key in old(zsets) && seconds <= 0 ==> zsets == old(zsets) - {key} && zttl == old(zttl) - {key}
      ensures key in old(zsets) && seconds > 0 ==> zsets == old(zsets) && zttl == old(zttl)[key := seconds]
    {
      if key in zsets {
        if seconds <= 0 {
          zsets := zsets - {key};
          zttl := zttl - {key};
        } else {
          zttl := zttl[key := seconds];
        }
      }
    }
  }
}
